=== FILE: README.md ===
# HTTP server manager: registry and log buffers

This project models the core of `ServerManagerApp` in `NodoFiel.py`. That desktop window starts small HTTP servers on chosen ports. It shows the requests each server receives and keeps one log file per port. It remembers the running servers in a JSON configuration file.

The model covers the following:

- **State.** `Registry.Manager` is an immutable record. It holds the three port-keyed tables of the window: `servers`, `messages` and `port_to_name`. It also holds:
  - the registration order of `servers`, which is the order the Python dict iterates;
  - the texts of the entries in the list of open servers;
  - the selected port;
  - one log file per port;
  - the configuration file.
- **Operations.** Every command of the window is a pure function from a state to a `Reply`, which is the new state plus the warning the window shows or the error it raises, if any. Selecting an entry includes the list refresh that follows it in the same click. Filtering uses a method with a loop.
- **Text helpers.** The list entry `"<name> (Puerto: <port>)"`, its parse and Python's `split(sep)[1]` (`Labels`). The request event and its timestamp (`Events`). The ASCII versions of Python's `isdigit`, `int`, `strip`, `lower` and `in` (`Text`).
- **Log buffers.** The search filter and the clean-up of a loaded log file (`LogBuffer`).
- **Configuration records.** Records and their defaults (`Config`).

Python's outside world becomes parameters:

- **Binding.** A `set<int>` of unavailable ports. A bind succeeds exactly when `0 <= port <= 65535` and the port is not in the set. Outside that range `socket.bind` raises.
- **Timestamps.** The output of `datetime.now().strftime(...)` is a string argument.
- **Dialogs.** The confirmation dialog is a `bool`. The file-open dialog is an `Option` holding the lines of the chosen file.
- **Files.** The log files and the configuration file are part of the state.

`CloseReload` holds the lemmas about the close command as written, which reloads the configuration. `Scenarios` holds concrete runs.

## Model

| member | source | states |
|---|---|---|
| Text.PyIntOfDigits | NodoFiel.py:206-209 | a port text that passes `isdigit` converts with `int` to exactly the number its digits denote |
| Text.DecimalOfDigits | NodoFiel.py:229 | printing the value of a canonical digit string gives that string back, so decimal printing and digit parsing are inverse |
| Text.StripSetBlank | NodoFiel.py:337 | stripping yields the empty string exactly when every character is in the stripped set |
| Text.StripSetIdempotent | NodoFiel.py:256 | stripping a stripped string changes nothing |
| Labels.SecondField | NodoFiel.py:256 | `split(sep)[1]` exists exactly when the text contains the separator. The piece is the text that starts right after the first separator and runs up to the next separator or the end of the text, and it contains no separator |
| Labels.LabelRoundTrip | NodoFiel.py:256 | with a name free of "Puerto:", parsing the entry text as the window does gives back the port the entry was made for |
| Labels.ParseLabelMisreadsTaggedName | NodoFiel.py:256 | the entry for name "Puerto: 5 Puerto:" on port 80 parses to port 5, not 80 |
| Labels.LabelRoundTripAnyName | NodoFiel.py:256 | reading after the last "Puerto:" gives back the entry's port for every name |
| Events.BodyNamesPort | NodoFiel.py:27-32 | the simple handler's answer body names the port that served it, and the port can be read back from it |
| Events.EventNamesClientPort | NodoFiel.py:34-36 | the event text starts with "GET " and the path, and the client port can be read back after its last colon whatever the path and host hold |
| Events.StampRoundTrip | NodoFiel.py:235-236 | a stored line splits back into its timestamp and message when the timestamp holds no ']' |
| Config.WithDefaults | NodoFiel.py:367-370 | each missing key of a record takes its default ("Servidor", 0, "simple", no directory), and each present key is used as is |
| Config.RecordRoundTrip | NodoFiel.py:348-370 | a record written by save_config reads back as the server it was written from |
| Registry.Open | NodoFiel.py:206-231 | the open fails with "invalid" exactly when the name is empty or the port text is not all digits. With a valid name and digits it reports a duplicate exactly when the port is running, a missing directory exactly when the port is free and a static server has no directory, and a bind failure exactly when neither holds and the port does not bind. On success the port is added to the three tables with its settings, an empty list and its name, it goes to the end of the order, its entry goes to the end of the list, and nothing else changes. Any failure leaves the state unchanged |
| RegistryProperties.OpenKeepsInvariants | NodoFiel.py:226-229 | after an open, the three tables still have the same keys, the order lists each server once, and every list entry names a running server. Every message list is still the tail of its log file |
| RegistryProperties.RegisterKeepsValid | NodoFiel.py:382-385 | registering a fresh port in range keeps the tables in step and keeps every list a tail of its file |
| Registry.AddMessage | NodoFiel.py:233-241 | the stamped line is appended to the port's list and to the port's log file, and nothing else in the window changes. A port without a list reports the missing key and changes nothing |
| RegistryProperties.AddMessageKeepsInvariants | NodoFiel.py:238-241 | a new message keeps the tables in step and every list the tail of its log file |
| Registry.OnRequest | NodoFiel.py:34-36 | a GET request on a simple server appends "[ts] GET path desde host:port" to that port's list and log, and nothing else changes. A simple server without a list reports the missing key and changes nothing. A static server records nothing |
| RegistryProperties.EventsStayOnTheirPort | NodoFiel.py:238-241 | a request never changes another port's list or log file |
| RegistryProperties.SelectFindsServer | NodoFiel.py:255-260 | in a valid window, selecting any entry selects a running server whose entry it is |
| Registry.Select | NodoFiel.py:245-273 | the corrected selection changes only the selected port, and selecting no entry clears it and succeeds. Showing the selected port's list fails with the missing key exactly when that port has no list |
| Registry.SelectAsWritten | NodoFiel.py:245-273 | the window's own selection changes only the selected port, and selecting no entry clears it and succeeds. The port is set before filter_messages looks it up, which fails with the missing key exactly when that port has no list |
| RegistryProperties.SelectAsWrittenAgrees | NodoFiel.py:256 | while no server name contains "Puerto:", the window's selection and the corrected one select the same port |
| RegistryProperties.SelectKeepsSelectionRegistered | NodoFiel.py:245-265 | in a valid window a selection never fails, the selected port, if any, is a running server, and the window stays valid |
| LogBuffer.FilterLines | NodoFiel.py:271-275 | the shown lines are exactly the lines that contain the search text, ignoring case, in the list's order. A line is shown exactly when it is in the list and matches |
| LogBuffer.KeepMembers | NodoFiel.py:273-275 | a line is shown exactly when it is in the list and matches the search |
| LogBuffer.KeepCounts | NodoFiel.py:273-275 | a matching line is shown as many times as it occurs, and a non-matching one never |
| LogBuffer.KeepIsSubsequence | NodoFiel.py:273-275 | the shown lines keep the list's order |
| LogBuffer.KeepAppend | NodoFiel.py:273-275 | filtering a concatenation filters each part and concatenates the results |
| LogBuffer.KeepEmptySearch | NodoFiel.py:271-275 | an empty search shows the whole list |
| Registry.Filter | NodoFiel.py:267-275 | with nothing selected nothing is shown. A selected port without a list reports the missing key. Otherwise the result is the filtered list of the selected port |
| Registry.ClearLogs | NodoFiel.py:313-326 | without a selection the command fails and changes nothing. Without confirmation it changes nothing and reports nothing. With confirmation the selected port's log file becomes empty, and then its list is emptied or, if it has none, the missing key is reported. Nothing else changes |
| RegistryProperties.ClearLogsKeepsInvariants | NodoFiel.py:321-322 | clearing keeps the tables in step and every list the tail of its file |
| Registry.LoadLogs | NodoFiel.py:328-341 | without a selection the command fails and changes nothing. With a selection it reports nothing. A cancelled dialog changes nothing. Otherwise the selected port's list becomes the cleaned lines of the file, and nothing else changes |
| LogBuffer.CleanLinesStripped | NodoFiel.py:337 | every loaded line is non-empty and already stripped, and no more lines are kept than were read |
| LogBuffer.CleanLineDropped | NodoFiel.py:337 | a line is dropped exactly when it is whitespace only |
| LogBuffer.CleanLinesAppend | NodoFiel.py:337 | cleaning a concatenation cleans each part and keeps their order |
| LogBuffer.CleanLinesIdempotent | NodoFiel.py:337 | loading an already loaded list again changes nothing |
| LogBuffer.CleanLinesFixed | NodoFiel.py:337 | a list of non-empty stripped lines is left as it is |
| RegistryProperties.LoadLogsKeepsValid | NodoFiel.py:337 | loading a file for a running server keeps the tables in step |
| RegistryProperties.LoadLogsKeepsBuffers | NodoFiel.py:337 | whatever is selected, every running server keeps a list and a name |
| RegistryProperties.LoadLogsBreaksLogSuffix | NodoFiel.py:337 | after loading a non-blank line on a port with an empty log, the list is no longer the tail of its log file |
| RegistryProperties.LoadLogsOnUnknownPortSplitsKeys | NodoFiel.py:337 | loading for a selected port that is not running gives the message table a key the server table lacks |
| Registry.Shutdown | NodoFiel.py:391-392 | closing the window writes one record per running server into the configuration file, in the dict's order, each reading back as that server's name, port, mode and directory, and changes nothing else |
| Registry.SaveConfig | NodoFiel.py:343-353 | one record per running server in the dict's order. Each record reads back as that server's name, port, mode and directory, and every running port has a record |
| Registry.LoadConfig | NodoFiel.py:360-385 | the list is emptied and then holds exactly the entries of the servers the loop started, in the order they started, each under its name; the order gains the same ports. Running servers keep their settings, list and name. Every newly started port binds, starts with an empty list and takes the first matching record's settings. A file that cannot be read starts nothing |
| Registry.RestoreAllLists | NodoFiel.py:371-385 | load_config's loop keeps the order and the list it started with and appends exactly the servers it starts, each listed under its name |
| Registry.RestoreAll | NodoFiel.py:366-387 | servers that were already running keep their settings, list and name. Every record whose port binds leaves that port running. A newly started port binds, starts with an empty list, and takes its mode, directory and name from the first record for that port. The log files, selection and configuration are untouched |
| RegistryProperties.RestoreAllKeepsValid | NodoFiel.py:366-387 | load_config's loop keeps the tables in step and every list a tail of its file |
| RegistryProperties.LoadConfigKeepsValid | NodoFiel.py:360-389 | load_config keeps the tables in step and every list a tail of its file |
| RegistryProperties.StartupValid | NodoFiel.py:137-195 | the window starts with the tables in step and every list the tail of its file, whatever the configuration file holds |
| RegistryProperties.SaveLoadRoundTrip | NodoFiel.py:343-392 | if every saved port binds, closing the window and starting it again brings back the same servers, names and settings in the same order. The lists start empty and the entries are in that order |
| Registry.Close | NodoFiel.py:277-294 | without a selection, or with a selected port that is not running, the command fails and changes nothing. With a running selected port it succeeds. The selection is cleared and the log files and configuration are kept. Every other running server keeps running with its settings, list and name. The closed port is running afterwards only if the configuration file parsed, has a record for it, and it binds; it then starts with an empty list. Every server that runs afterwards and did not before, the closed port included, was started by the first record for its port, with that record's name, mode and directory. The order is the old order without the closed port, followed by the started servers, and the list holds exactly their entries in that order |
| RegistryProperties.CloseKeepsInvariants | NodoFiel.py:277-292 | the close as written keeps the tables in step and every list the tail of its file |
| RegistryProperties.UnregisterKeepsValid | NodoFiel.py:285-288 | removing a running port from the three tables keeps them in step |
| CloseReload.RestoredLabels | NodoFiel.py:361-385 | load_config's loop keeps the list it started with and only appends entries, each naming a configured port that was not already running |
| CloseReload.RestoreAllForgets | NodoFiel.py:366-385 | a port that was in none of the tables and is not started by load_config stays out of the message and name tables |
| CloseReload.CloseRestartsConfiguredPort | NodoFiel.py:283-292 | closing a server whose port is configured and binds again leaves that port running |
| CloseReload.CloseRestartsOnlyConfigured | NodoFiel.py:283-292 | the closed port is running afterwards only if the configuration file has a record for it and it binds; otherwise it has left all three tables |
| CloseReload.CloseUnlistsSurvivors | NodoFiel.py:285-292 | after a close, every other server is still running, but no list entry under any name is for it |
| Registry.CloseAndRelist | NodoFiel.py:281-291 | with a running selected port the corrected close succeeds. It removes exactly the selected port from the three tables and the order, clears the selection, and keeps the log files and configuration. Every remaining server is listed once, in order, under its name |
| RegistryProperties.CloseAndRelistKeepsValid | NodoFiel.py:285-288 | the corrected close keeps the tables in step and every list a tail of its file |
| Scenarios.OpenAOn8080 | NodoFiel.py:206-229 | at first start, opening "A" on "8080" in simple mode gives the tables {8080: simple}, {8080: []} and {8080: "A"} and the one entry "A (Puerto: 8080)" |
| Scenarios.RequestOn8080 | NodoFiel.py:27-36 | a GET request for /foo from 127.0.0.1:5000 is answered "Hola desde servidor en puerto 8080" and stored as "[ts] GET /foo desde 127.0.0.1:5000" in both the list and the log |
| Scenarios.OpenSamePortTwice | NodoFiel.py:210-212 | opening 8080 a second time reports the duplicate port and changes nothing |
| Scenarios.OpenTaggedOn80 | NodoFiel.py:206-229 | at first start, opening "Puerto: 5 Puerto:" on "80" in simple mode succeeds and lists the entry "Puerto: 5 Puerto: (Puerto: 80)" |
| Scenarios.SelectTaggedName | NodoFiel.py:255-273 | after that open, the window's selection of the only entry sets the port to 5, which is not running, and the list refresh in the same click fails on the missing key 5; the corrected selection picks 80 and succeeds. Only if the window carried on after that error would a load of historical logs give the message table a key the server table lacks |

## Left out

- HTTP serving, sockets and threads (`HttpServerThread`, NodoFiel.py:41-67). A running server is a table entry, and the bind is the unavailable-ports argument. The static file handler (NodoFiel.py:18-24) only appears as "reports no events".
- Binding port 0 picks an ephemeral port in Python. The model treats 0 as an ordinary port. A configuration record without a port therefore starts a server registered under 0.
- The closed server's socket is still referenced while load_config runs. Whether that port binds again at once depends on the platform, so the bind argument decides it.
- The Qt interface is left out:
  - the new-server dialog, which hands over a stripped name and port (NodoFiel.py:118-124);
  - button enabling and the heading text (NodoFiel.py:249-252, NodoFiel.py:261-264);
  - message boxes, which are the `Failure` values instead;
  - clearing the search box on close (NodoFiel.py:291).
- `export_logs` (NodoFiel.py:296-311) only copies a file through a save dialog and changes no state.
- File system errors and JSON parsing:
  - an unreadable or malformed configuration file is `Malformed`, and load_config then starts nothing;
  - a "servers" entry that is not an object, and a load that stops part-way through on such an entry, are not modelled;
  - log files are sequences of lines, and their encoding is not modelled.
- `closeEvent` stopping the threads (NodoFiel.py:393-395). Only the saving of the configuration is kept.
- Python's `int()` accepts underscores and non-ASCII digits, and `str.strip()`/`lower()` handle non-ASCII characters. The model covers ASCII only.
- `carga.py` is a splash screen. It creates config.json and the logs/ directory when they are missing and then launches NodoFiel.exe (carga.py:53-107). It is not part of this model.
- Uncaught missing keys: `add_message` (NodoFiel.py:238) and `filter_messages` (NodoFiel.py:273) index `self.messages` without a check. An uncaught KeyError inside a Qt slot aborts the process under PyQt. The model instead returns `UnknownPort` and lets later commands run; it does not model the process ending. For add_message the state is unchanged. For a selection the port is already set when filter_messages raises, so the returned state holds it.
- Configuration values of the wrong type: a key that is present but null, or holds a value of another type, cannot be expressed. A record field that is `None` stands for a missing key.
- The warning load_config shows for a malformed configuration file (NodoFiel.py:389) is not returned as a `Failure`. The model only starts nothing in that case.
- Registry.Select: its own contract states that the selection changes nothing else and when showing its list fails, but not which port it picks. What it selects is stated by RegistryProperties.SelectFindsServer and RegistryProperties.SelectKeepsSelectionRegistered.
- Registry.Close: its contract says the list holds exactly the entries of the servers load_config started, but not in so many words that every other survivor has lost its entry. CloseReload.CloseUnlistsSurvivors states that.

## Findings

| source | as written | input that shows it | evidently intended | confidence | as-written member | corrected member |
|---|---|---|---|---|---|---|
| NodoFiel.py:256 | the port is read from the text after the first "Puerto:" of the entry, which may be inside the server's name | a server named "Puerto: 5 Puerto:" on port 80: selecting its entry sets the port to 5, and the same click raises KeyError in filter_messages because 5 has no list | select the port the entry was made for, which follows the last "Puerto:" | not executed | Labels.ParseLabelMisreadsTaggedName | Labels.LabelRoundTripAnyName (used by Registry.Select) |
| NodoFiel.py:277-294 with NodoFiel.py:360-387 | close empties the list and calls load_config, which lists only the servers it starts itself. It also restarts the closed port when that port is configured and binds | open A on 8080 and B on 8081 (not in the configuration file), select A and close it: B keeps running but has no entry, so it can no longer be selected or closed | remove only the closed server; keep every other server listed | not executed | CloseReload.CloseUnlistsSurvivors | Registry.CloseAndRelist |

For the first finding, `Registry.Select` uses the corrected parse (`Labels.ParseLabelLast`). `Registry.SelectAsWritten` is the window's selection with the as-written parse, and `RegistryProperties.SelectAsWrittenAgrees` shows that the two agree while no name contains "Puerto:". With the as-written parse, a selected port might not be running. `Scenarios.SelectTaggedName` reaches that selection from a first start and shows that the click itself raises the missing key. A later load happens only if the window carries on after that error, which is the model's convention for such errors; `RegistryProperties.LoadLogsOnUnknownPortSplitsKeys` shows what the load would then do to the tables. The as-written close also restarts a configured port, as stated by `CloseReload.CloseRestartsConfiguredPort`.

=== FILE: close_reload.dfy ===
/**
 * What close_selected_server does to the window because it ends by calling
 * load_config: a configured port comes back up right after it was closed when
 * it binds again, and the list keeps only the entries load_config adds, so
 * every server that was already running drops out of the list.
 */
module CloseReload {
  import opened Wrappers
  import opened Config
  import Labels
  import opened Registry

  /** The ports the records of a configuration file start servers on. */
  function ConfiguredPorts(recs: seq<ConfigRecord>): (r: set<int>)
    ensures forall i :: 0 <= i < |recs| ==> WithDefaults(recs[i]).port in r
    ensures forall p :: p in r ==> exists i :: 0 <= i < |recs| && WithDefaults(recs[i]).port == p
  {
    set i | 0 <= i < |recs| :: WithDefaults(recs[i]).port
  }

  /** The configured ports of a prefix of the records are configured ports of all of them. */
  lemma ConfiguredPrefix(recs: seq<ConfigRecord>, k: nat)
    requires k <= |recs|
    ensures ConfiguredPorts(recs[..k]) <= ConfiguredPorts(recs)
  {
    forall p | p in ConfiguredPorts(recs[..k]) ensures p in ConfiguredPorts(recs) {
      var i :| 0 <= i < k && WithDefaults(recs[..k][i]).port == p;
      assert recs[..k][i] == recs[i];
    }
  }

  /**
   * r's list is t's list followed by entries that each name a port of ports
   * that was not running in t.
   */
  ghost predicate AddedLabelsFrom(t: Manager, r: Manager, ports: set<int>) {
    && |t.labels| <= |r.labels|
    && r.labels[..|t.labels|] == t.labels
    && forall i :: |t.labels| <= i < |r.labels| ==>
         && Labels.ParseLabelLast(r.labels[i]).Some?
         && Labels.ParseLabelLast(r.labels[i]).value in ports
         && Labels.ParseLabelLast(r.labels[i]).value !in t.servers
  }

  /**
   * Every entry load_config adds to the list names the port of one of the
   * records, and that port was not running before the loop.
   */
  lemma {:induction false} RestoredLabels(t: Manager, recs: seq<ConfigRecord>, unavailable: set<int>)
    ensures AddedLabelsFrom(t, RestoreAll(t, recs, unavailable), ConfiguredPorts(recs))
    decreases |recs|
  {
    if recs != [] {
      var k := |recs| - 1;
      var front := recs[..k];
      RestoredLabels(t, front, unavailable);
      ConfiguredPrefix(recs, k);
      var r0 := RestoreAll(t, front, unavailable);
      var d := WithDefaults(recs[k]);
      var r := RestoreOne(r0, recs[k], unavailable);
      assert d.port in ConfiguredPorts(recs);
      if d.port !in r0.servers && Binds(d.port, unavailable) {
        AddedLabelsStep(t, r0, r, ConfiguredPorts(front), ConfiguredPorts(recs), d.name, d.port);
      } else {
        AddedLabelsWiden(t, r0, ConfiguredPorts(front), ConfiguredPorts(recs));
      }
    }
  }

  /** Allowing more ports keeps the added entries allowed. */
  lemma AddedLabelsWiden(t: Manager, r: Manager, ports: set<int>, more: set<int>)
    requires AddedLabelsFrom(t, r, ports) && ports <= more
    ensures AddedLabelsFrom(t, r, more)
  {
  }

  /** Adding the entry of a new allowed port keeps the list of that shape. */
  lemma AddedLabelsStep(t: Manager, r0: Manager, r: Manager, ports: set<int>, more: set<int>, name: string, port: nat)
    requires AddedLabelsFrom(t, r0, ports) && ports <= more
    requires port in more && port !in t.servers
    requires r.labels == r0.labels + [Labels.Label(name, port)]
    ensures AddedLabelsFrom(t, r, more)
  {
    Labels.LabelRoundTripAnyName(name, port);
    assert r.labels[..|t.labels|] == r0.labels[..|t.labels|];
    forall i | |t.labels| <= i < |r.labels|
      ensures Labels.ParseLabelLast(r.labels[i]).Some?
      ensures Labels.ParseLabelLast(r.labels[i]).value in more
      ensures Labels.ParseLabelLast(r.labels[i]).value !in t.servers
    {
      if i < |r0.labels| {
        assert r.labels[i] == r0.labels[i];
      }
    }
  }

  /**
   * Closing the selected server brings it straight back when the
   * configuration file has a record for its port and the port binds again.
   */
  lemma CloseRestartsConfiguredPort(s: Manager, unavailable: set<int>)
    requires s.currentPort.Some? && s.currentPort.value in s.servers
    requires s.config.Parsed? && s.currentPort.value in ConfiguredPorts(s.config.servers)
    requires Binds(s.currentPort.value, unavailable)
    ensures Close(s, unavailable).failure.None?
    ensures s.currentPort.value in Close(s, unavailable).state.servers
  {
    var p := s.currentPort.value;
    var i :| 0 <= i < |s.config.servers| && WithDefaults(s.config.servers[i]).port == p;
  }

  /**
   * The closed port is running after the close only when the configuration
   * file has a record for it and it binds again; otherwise it has left the
   * three tables.
   */
  lemma CloseRestartsOnlyConfigured(s: Manager, unavailable: set<int>)
    requires s.currentPort.Some? && s.currentPort.value in s.servers
    ensures var p := s.currentPort.value; var r := Close(s, unavailable).state;
      && (p in r.servers ==> s.config.Parsed? && p in ConfiguredPorts(s.config.servers) && Binds(p, unavailable))
      && (p !in r.servers ==> p !in r.messages && p !in r.portToName)
  {
    var p := s.currentPort.value;
    var t := Unregister(s, p).(labels := []);
    var r := Close(s, unavailable).state;
    if s.config.Parsed? {
      if p !in r.servers {
        RestoreAllForgets(t, s.config.servers, p, unavailable);
      }
    }
  }

  /** A port that is in none of the tables before load_config's loop and is not started stays out of them. */
  lemma {:induction false} RestoreAllForgets(t: Manager, recs: seq<ConfigRecord>, p: int, unavailable: set<int>)
    requires p !in t.servers && p !in t.messages && p !in t.portToName
    requires p !in RestoreAll(t, recs, unavailable).servers
    ensures p !in RestoreAll(t, recs, unavailable).messages && p !in RestoreAll(t, recs, unavailable).portToName
    decreases |recs|
  {
    if recs != [] {
      RestoreAllForgets(t, recs[..|recs| - 1], p, unavailable);
    }
  }

  /**
   * Every other server keeps running through the close but is no longer
   * listed afterwards, under any name: load_config only lists the servers it
   * starts itself.
   */
  lemma CloseUnlistsSurvivors(s: Manager, q: nat, unavailable: set<int>)
    requires s.currentPort.Some? && s.currentPort.value in s.servers
    requires q in s.servers && q != s.currentPort.value
    ensures Close(s, unavailable).failure.None?
    ensures q in Close(s, unavailable).state.servers
    ensures forall name :: Labels.Label(name, q) !in Close(s, unavailable).state.labels
  {
    var r := Close(s, unavailable).state;
    var t := Unregister(s, s.currentPort.value).(labels := []);
    assert q in t.servers;
    if s.config.Parsed? {
      RestoredLabels(t, s.config.servers, unavailable);
      forall name ensures Labels.Label(name, q) !in r.labels {
        Labels.LabelRoundTripAnyName(name, q);
      }
    }
  }
}

=== FILE: config.dfy ===
/**
 * The configuration file: a list of server descriptors under the "servers"
 * key, written when the window closes and read at start-up and after a close.
 */
module Config {
  import opened Wrappers

  /** Defaults load_config uses for fields a record lacks. */
  const DefaultName := "Servidor"
  const DefaultPort := 0
  const DefaultMode := "simple"

  /** What is needed to (re)start one server. */
  datatype Descriptor = Descriptor(name: string, port: int, mode: string, staticDir: Option<string>)

  /**
   * One object of the "servers" list; a missing key is None. A "static_dir"
   * that is missing and one that is null both read as None.
   */
  datatype ConfigRecord = ConfigRecord(
    name: Option<string>,
    port: Option<int>,
    mode: Option<string>,
    staticDir: Option<string>)

  /**
   * The file as load_config finds it: absent, unreadable as JSON, or parsed
   * (a parsed file without a "servers" key holds the empty list).
   */
  datatype ConfigFile = Missing | Malformed | Parsed(servers: seq<ConfigRecord>)

  /** The srv.get(key, default) reads of load_config. */
  function WithDefaults(rec: ConfigRecord): (d: Descriptor)
    ensures rec.name.Some? ==> d.name == rec.name.value
    ensures rec.name.None? ==> d.name == DefaultName
    ensures rec.port.Some? ==> d.port == rec.port.value
    ensures rec.port.None? ==> d.port == DefaultPort
    ensures rec.mode.Some? ==> d.mode == rec.mode.value
    ensures rec.mode.None? ==> d.mode == DefaultMode
    ensures d.staticDir == rec.staticDir
  {
    Descriptor(rec.name.GetOr(DefaultName), rec.port.GetOr(DefaultPort), rec.mode.GetOr(DefaultMode), rec.staticDir)
  }

  /** The object save_config writes for one running server: every key present. */
  function ToRecord(d: Descriptor): (rec: ConfigRecord)
    ensures rec.name.Some? && rec.port.Some? && rec.mode.Some?
  {
    ConfigRecord(Some(d.name), Some(d.port), Some(d.mode), d.staticDir)
  }

  /** A written record reads back as the descriptor it was written from. */
  lemma RecordRoundTrip(d: Descriptor)
    ensures WithDefaults(ToRecord(d)) == d
  {
  }
}

=== FILE: events.dfy ===
/**
 * What a listener in simple mode does with one GET request: the fixed answer
 * it sends back, and the text of the event it reports to the manager, which
 * the manager stores with a timestamp prefix.
 */
module Events {
  import opened Wrappers
  import opened Text

  const Greeting := "Hola desde servidor en puerto "
  const PlainText := "text/plain"
  const StampClose := "] "

  /** The answer of CustomSimpleHandler.do_GET and the text it passes to the callback. */
  datatype Exchange = Exchange(status: nat, contentType: string, body: string, event: string)

  /** The body of every simple-mode answer: the greeting and the listening port. */
  function ResponseBody(serverPort: nat): string {
    Greeting + Decimal(serverPort)
  }

  /** The event text: method, path and client address. */
  function RequestText(path: string, host: string, clientPort: nat): string {
    "GET " + path + " desde " + host + ":" + Decimal(clientPort)
  }

  /** One GET request served in simple mode. */
  function SimpleGet(serverPort: nat, path: string, host: string, clientPort: nat): Exchange {
    Exchange(200, PlainText, ResponseBody(serverPort), RequestText(path, host, clientPort))
  }

  /** The port a client reads out of an answer body, if the body has the greeting shape. */
  function PortOfBody(body: string): Option<nat> {
    if |body| >= |Greeting| && body[..|Greeting|] == Greeting && IsDigits(body[|Greeting|..]) then
      Some(DigitsValue(body[|Greeting|..]))
    else
      None
  }

  /** The answer body names the port that served it. */
  lemma BodyNamesPort(serverPort: nat)
    ensures PortOfBody(ResponseBody(serverPort)) == Some(serverPort)
  {
    var body := ResponseBody(serverPort);
    assert body[..|Greeting|] == Greeting;
    assert body[|Greeting|..] == Decimal(serverPort);
  }

  /** The client port at the end of an event text: the digits after its last colon. */
  function ClientPortOf(event: string): Option<nat> {
    match LastIndexOf(event, ":")
    case None => None
    case Some(k) => if IsDigits(event[k + 1..]) then Some(DigitsValue(event[k + 1..])) else None
  }

  /**
   * The event text names the client port, whatever the path and host hold:
   * the port is printed last, after the last colon.
   */
  lemma EventNamesClientPort(path: string, host: string, clientPort: nat)
    ensures ClientPortOf(RequestText(path, host, clientPort)) == Some(clientPort)
    ensures RequestText(path, host, clientPort)[..4 + |path|] == "GET " + path
  {
    var front := "GET " + path + " desde " + host;
    var d := Decimal(clientPort);
    var e := RequestText(path, host, clientPort);
    assert e == front + ":" + d;
    var k := |front|;
    assert OccursAt(e, ":", k);
    forall j | j > k
      ensures !OccursAt(e, ":", j)
    {
      if j + 1 <= |e| {
        assert e[j..j + 1][0] == e[j] == d[j - k - 1];
        assert IsDigit(d[j - k - 1]);
      }
    }
    assert LastIndexOf(e, ":") == Some(k);
    assert e[k + 1..] == d;
  }

  /** The stored line of add_message: the timestamp in square brackets, a space, then the message. */
  function Stamp(timestamp: string, message: string): string {
    "[" + timestamp + StampClose + message
  }

  /** Splits a stored line back into timestamp and message, if it has the stamped shape. */
  function Unstamp(line: string): Option<(string, string)> {
    if |line| > 0 && line[0] == '[' then
      match IndexOf(line, StampClose)
      case None => None
      case Some(k) => if k >= 1 then Some((line[1..k], line[k + |StampClose|..])) else None
    else
      None
  }

  /**
   * A stored line gives back its timestamp and message, provided the timestamp
   * holds no ']' (true of the "%Y-%m-%d %H:%M:%S" format the manager uses).
   */
  lemma StampRoundTrip(timestamp: string, message: string)
    requires ']' !in timestamp
    ensures Unstamp(Stamp(timestamp, message)) == Some((timestamp, message))
  {
    var line := Stamp(timestamp, message);
    var k := 1 + |timestamp|;
    assert line[k..k + |StampClose|] == StampClose;
    assert OccursAt(line, StampClose, k);
    forall j | 0 <= j < k
      ensures !OccursAt(line, StampClose, j)
    {
      assert line[j..j + |StampClose|][0] == line[j];
      if j > 0 {
        assert line[j] == timestamp[j - 1];
      }
    }
    assert IndexOf(line, StampClose) == Some(k);
    assert line[1..k] == timestamp;
    assert line[k + |StampClose|..] == message;
  }
}

=== FILE: labels.dfy ===
/**
 * The text of an entry in the list of open servers, "<name> (Puerto: <port>)",
 * and the parse that recovers the port when the operator selects the entry.
 */
module Labels {
  import opened Wrappers
  import opened Text

  const PortTag := "Puerto:"

  /** The characters stripped from the piece that follows the tag. */
  const LabelTrim: set<char> := {' ', ')'}

  /** The entry added for a server: its name, then the tag and the port in parentheses. */
  function Label(name: string, port: nat): string {
    name + " (" + PortTag + " " + Decimal(port) + ")"
  }

  /** An occurrence inside a prefix is an occurrence in the whole string. */
  lemma OccursInPrefix(s: string, pat: string, j: nat, k: int)
    requires j <= |s|
    ensures OccursAt(s[..j], pat, k) ==> OccursAt(s, pat, k) && k + |pat| <= j
  {
    if 0 <= k && k + |pat| <= j {
      assert s[..j][k..k + |pat|] == s[k..k + |pat|];
    }
  }

  /**
   * The second piece of splitting text at sep: what lies between the first and
   * the second occurrence of sep, or the end of text; None where Python
   * raises IndexError because sep does not occur.
   */
  function SecondField(text: string, sep: string): (r: Option<string>)
    requires sep != []
    ensures r.Some? <==> Contains(text, sep)
    ensures r.Some? ==> !Contains(r.value, sep)
    ensures r.Some? ==>
      var b := IndexOf(text, sep).value + |sep|;
      var e := b + |r.value|;
      && e <= |text|
      && r.value == text[b..e]
      && (e == |text| || OccursAt(text, sep, e))
      && forall j :: b <= j < e ==> !OccursAt(text, sep, j)
  {
    match IndexOf(text, sep)
    case None => None
    case Some(k) =>
      var b := k + |sep|;
      var rest := text[b..];
      match IndexOf(rest, sep)
      case None =>
        NoTagAfter(text, sep, b);
        Some(rest)
      case Some(j) =>
        NextTagAfter(text, sep, b, j);
        Some(rest[..j])
  }

  /** With no occurrence in text[b..], none starts at or after b. */
  lemma NoTagAfter(text: string, sep: string, b: nat)
    requires b <= |text| && IndexOf(text[b..], sep).None?
    ensures forall j :: b <= j < |text| ==> !OccursAt(text, sep, j)
  {
    forall j | b <= j < |text| ensures !OccursAt(text, sep, j) {
      OccursShift(text, sep, b, j - b);
    }
  }

  /**
   * The first occurrence in text[b..] at j is the first occurrence in text at
   * or after b, and the piece before it holds no occurrence.
   */
  lemma NextTagAfter(text: string, sep: string, b: nat, j: nat)
    requires sep != [] && b <= |text| && IndexOf(text[b..], sep) == Some(j)
    ensures b + j + |sep| <= |text| && OccursAt(text, sep, b + j)
    ensures forall i :: b <= i < b + j ==> !OccursAt(text, sep, i)
    ensures !Contains(text[b..][..j], sep)
  {
    var rest := text[b..];
    OccursShift(text, sep, b, j);
    forall i | b <= i < b + j ensures !OccursAt(text, sep, i) {
      OccursShift(text, sep, b, i - b);
    }
    forall k ensures OccursAt(rest[..j], sep, k) ==> OccursAt(rest, sep, k) && k + |sep| <= j {
      OccursInPrefix(rest, sep, j, k);
    }
  }

  /** An occurrence in a suffix of s is an occurrence in s, shifted by where the suffix starts. */
  lemma OccursShift(s: string, pat: string, a: nat, j: nat)
    requires a <= |s|
    ensures OccursAt(s[a..], pat, j) <==> OccursAt(s, pat, a + j)
  {
    if j + |pat| <= |s| - a {
      assert s[a..][j..j + |pat|] == s[a + j..a + j + |pat|];
    }
  }

  /**
   * The parse of on_server_selected: the second piece of the entry split at
   * the tag, stripped of spaces and closing parentheses, read as an int; None
   * where that expression raises.
   */
  function ParseLabel(text: string): Option<int> {
    match SecondField(text, PortTag)
    case None => None
    case Some(piece) => PyInt(StripSet(piece, LabelTrim))
  }

  /** A string without the letter P contains no tag. */
  lemma NoTagWithoutP(t: string, k: int)
    requires 'P' !in t
    ensures !OccursAt(t, PortTag, k)
  {
    if 0 <= k && k + |PortTag| <= |t| {
      assert t[k..k + |PortTag|][0] == t[k] != PortTag[0];
    }
  }

  /** The pieces of a label: the name, " (", the tag, then a space, the port's digits and ")". */
  lemma LabelTail(name: string, port: nat)
    ensures |Label(name, port)| == |name| + 2 + |PortTag| + |Decimal(port)| + 2
    ensures Label(name, port)[..|name|] == name
    ensures Label(name, port)[|name|] == ' ' && Label(name, port)[|name| + 1] == '('
    ensures Label(name, port)[|name| + 2..|name| + 2 + |PortTag|] == PortTag
    ensures Label(name, port)[|name| + 2 + |PortTag|..] == " " + Decimal(port) + ")"
    ensures Label(name, port)[|name| + 3..] == "uerto: " + Decimal(port) + ")"
  {
    var d := Decimal(port);
    var tail := " " + d + ")";
    var t := " (" + PortTag + tail;
    assert Label(name, port) == name + t;
    assert t[2..2 + |PortTag|] == PortTag;
    assert t[2 + |PortTag|..] == tail;
    assert t[3..] == "uerto: " + d + ")";
  }

  /** Stripping a space before and one trimmed character after digits leaves the digits. */
  lemma StripPadded(d: string, c: char)
    requires IsDigits(d) && c in LabelTrim
    ensures StripSet(" " + d + [c], LabelTrim) == d
  {
    assert d[0] !in LabelTrim && d[|d| - 1] !in LabelTrim by {
      assert IsDigit(d[0]) && IsDigit(d[|d| - 1]);
    }
    var t := " " + d + [c];
    assert t[1..] == d + [c];
    assert TrimStart(t, LabelTrim) == d + [c];
    assert (d + [c])[..|d|] == d;
    assert TrimEnd(d + [c], LabelTrim) == d;
  }

  /** Stripping the label's tail leaves exactly the port's digits. */
  lemma StripTail(d: string)
    requires IsDigits(d)
    ensures StripSet(" " + d + ")", LabelTrim) == d
  {
    StripPadded(d, ')');
  }

  /**
   * A tag at n + 2, after a tag-free prefix of length n and two characters
   * that are not in the tag, is the first tag.
   */
  lemma FirstTagAt(l: string, n: nat)
    requires n + 2 <= |l| && OccursAt(l, PortTag, n + 2)
    requires !Contains(l[..n], PortTag)
    requires l[n] !in PortTag && l[n + 1] !in PortTag
    ensures IndexOf(l, PortTag) == Some(n + 2)
  {
    forall k | 0 <= k < n + 2
      ensures !OccursAt(l, PortTag, k)
    {
      if k + |PortTag| <= n {
        assert l[k..k + |PortTag|] == l[..n][k..k + |PortTag|];
        ContainsIff(l[..n], PortTag, k);
      } else if k + |PortTag| <= |l| {
        // The window covers position n or n + 1, whose characters are not in the tag.
        var j := if k <= n then n else n + 1;
        assert l[k..k + |PortTag|][j - k] == l[j];
      }
    }
  }

  /** When the name holds no tag, the first tag of the label is the one the label adds. */
  lemma FirstTagOfLabel(name: string, port: nat)
    requires !Contains(name, PortTag)
    ensures IndexOf(Label(name, port), PortTag) == Some(|name| + 2)
  {
    LabelTail(name, port);
    FirstTagAt(Label(name, port), |name|);
  }

  /** The label parses back to its port when the name does not contain the tag. */
  lemma LabelRoundTrip(name: string, port: nat)
    requires !Contains(name, PortTag)
    ensures ParseLabel(Label(name, port)) == Some(port)
  {
    var l := Label(name, port);
    var d := Decimal(port);
    FirstTagOfLabel(name, port);
    LabelTail(name, port);
    var rest := l[|name| + 2 + |PortTag|..];
    assert rest == " " + d + ")";
    assert 'P' !in rest;
    forall k ensures !OccursAt(rest, PortTag, k) {
      NoTagWithoutP(rest, k);
    }
    assert IndexOf(rest, PortTag).None?;
    assert SecondField(l, PortTag) == Some(rest);
    StripTail(d);
    PyIntOfDigits(d);
  }

  /**
   * A name that carries the tag twice makes the as-written parse read the
   * digits between those two tags instead of the port.
   */
  lemma ParseLabelMisreadsTaggedName()
    ensures ParseLabel(Label("Puerto: 5 Puerto:", 80)) == Some(5)
  {
    TaggedLabelText();
    ParseTaggedText();
  }

  lemma ParseTaggedText()
    ensures ParseLabel("Puerto: 5 Puerto: (Puerto: 80)") == Some(5)
  {
    TaggedLabelField();
    ParseOfField("Puerto: 5 Puerto: (Puerto: 80)");
  }

  lemma ParseOfField(text: string)
    requires SecondField(text, PortTag) == Some(" 5 ")
    ensures ParseLabel(text) == Some(5)
  {
    StripFive();
    PyIntOfFive();
  }

  lemma PyIntOfFive()
    ensures PyInt("5") == Some(5)
  {
    assert IsDigit('5');
    PyIntOfDigits("5");
    assert "5"[..0] == [];
  }

  lemma StripFive()
    ensures StripSet(" 5 ", LabelTrim) == "5"
  {
    assert IsDigit('5');
    assert " 5 " == " " + "5" + [' '];
    StripPadded("5", ' ');
  }

  lemma TaggedLabelField()
    ensures SecondField("Puerto: 5 Puerto: (Puerto: 80)", PortTag) == Some(" 5 ")
  {
    var l := "Puerto: 5 Puerto: (Puerto: 80)";
    assert IndexOf(l, PortTag) == Some(0) by {
      assert OccursAt(l, PortTag, 0);
    }
    var rest := l[7..];
    assert rest == " 5 Puerto: (Puerto: 80)";
    TaggedLabelRest(rest);
  }

  lemma TaggedLabelText()
    ensures Label("Puerto: 5 Puerto:", 80) == "Puerto: 5 Puerto: (Puerto: 80)"
  {
    assert Decimal(80) == "80";
  }

  lemma TaggedLabelRest(rest: string)
    requires rest == " 5 Puerto: (Puerto: 80)"
    ensures IndexOf(rest, PortTag) == Some(3)
    ensures rest[..3] == " 5 "
  {
    assert OccursAt(rest, PortTag, 3);
    assert rest[0] != 'P' && rest[1] != 'P' && rest[2] != 'P';
    forall k | 0 <= k < 3 ensures !OccursAt(rest, PortTag, k) {
      assert rest[k..k + |PortTag|][0] == rest[k];
    }
  }

  /** The corrected parse: the port is read from the text after the LAST tag. */
  function ParseLabelLast(text: string): Option<int> {
    match LastIndexOf(text, PortTag)
    case None => None
    case Some(k) => PyInt(StripSet(text[k + |PortTag|..], LabelTrim))
  }

  /** With the corrected parse every label gives back its port, whatever the name. */
  lemma LabelRoundTripAnyName(name: string, port: nat)
    ensures ParseLabelLast(Label(name, port)) == Some(port)
  {
    var l := Label(name, port);
    var n := |name|;
    var d := Decimal(port);
    LabelTail(name, port);
    assert 'P' !in l[n + 3..] by {
      assert forall i :: 0 <= i < |d| ==> IsDigit(d[i]);
    }
    LastTagAt(l, n + 2);
    StripTail(d);
    PyIntOfDigits(d);
  }

  /** A tag at k with no letter P after its first character is the last tag. */
  lemma LastTagAt(l: string, k: nat)
    requires OccursAt(l, PortTag, k)
    requires 'P' !in l[k + 1..]
    ensures LastIndexOf(l, PortTag) == Some(k)
  {
    forall j | j > k
      ensures !OccursAt(l, PortTag, j)
    {
      if j + |PortTag| <= |l| {
        assert l[j..j + |PortTag|][0] == l[j] == l[k + 1..][j - (k + 1)];
      }
    }
  }
}

=== FILE: log_buffer.dfy ===
/**
 * The per-port message list seen as a sequence of lines: the search filter the
 * window applies to it, and the clean-up applied to a log file loaded from disk.
 */
module LogBuffer {
  import opened Text

  /** The test of filter_messages: the search text occurs in the line, both in lower case. */
  predicate Matches(line: string, search: string) {
    Contains(ToLower(line), ToLower(search))
  }

  /** Reference definition: the lines that match, in their original order. */
  function Keep(lines: seq<string>, search: string): seq<string> {
    if lines == [] then []
    else
      var last := lines[|lines| - 1];
      Keep(lines[..|lines| - 1], search) + (if Matches(last, search) then [last] else [])
  }

  /** Filtering a concatenation filters each part and keeps them in order. */
  lemma {:induction false} KeepAppend(a: seq<string>, b: seq<string>, search: string)
    ensures Keep(a + b, search) == Keep(a, search) + Keep(b, search)
    decreases |b|
  {
    if b == [] {
      assert a + b == a;
    } else {
      var b' := b[..|b| - 1];
      assert (a + b)[..|a + b| - 1] == a + b';
      KeepAppend(a, b', search);
    }
  }

  /** A line is shown exactly when it is in the list and matches the search. */
  lemma {:induction false} KeepMembers(lines: seq<string>, search: string, x: string)
    ensures x in Keep(lines, search) <==> x in lines && Matches(x, search)
    decreases |lines|
  {
    if lines != [] {
      var front := lines[..|lines| - 1];
      KeepMembers(front, search, x);
      assert lines == front + [lines[|lines| - 1]];
    }
  }

  /** Each line is kept as many times as it occurs, when it matches. */
  lemma {:induction false} KeepCounts(lines: seq<string>, search: string, x: string)
    ensures multiset(Keep(lines, search))[x] == if Matches(x, search) then multiset(lines)[x] else 0
    decreases |lines|
  {
    if lines != [] {
      var front := lines[..|lines| - 1];
      KeepCounts(front, search, x);
      assert lines == front + [lines[|lines| - 1]];
    }
  }

  /** The empty search matches every line, so the whole list is shown. */
  lemma {:induction false} KeepEmptySearch(lines: seq<string>)
    ensures Keep(lines, "") == lines
    decreases |lines|
  {
    if lines != [] {
      var front := lines[..|lines| - 1];
      KeepEmptySearch(front);
      assert OccursAt(ToLower(lines[|lines| - 1]), ToLower(""), 0);
      ContainsIff(ToLower(lines[|lines| - 1]), ToLower(""), 0);
      assert lines == front + [lines[|lines| - 1]];
    }
  }

  /** a can be obtained from b by deleting elements. */
  predicate IsSubsequence(a: seq<string>, b: seq<string>)
    decreases |b|
  {
    if a == [] then true
    else if b == [] then false
    else if a[|a| - 1] == b[|b| - 1] then IsSubsequence(a[..|a| - 1], b[..|b| - 1])
    else IsSubsequence(a, b[..|b| - 1])
  }

  /** The filtered list keeps the original order. */
  lemma {:induction false} KeepIsSubsequence(lines: seq<string>, search: string)
    ensures IsSubsequence(Keep(lines, search), lines)
    decreases |lines|
  {
    if lines != [] {
      var front := lines[..|lines| - 1];
      KeepIsSubsequence(front, search);
      var k := Keep(lines, search);
      if Matches(lines[|lines| - 1], search) {
        assert k[..|k| - 1] == Keep(front, search);
      } else {
        assert k == Keep(front, search);
        assert lines == front + [lines[|lines| - 1]];
        SubsequenceOfLonger(k, front, lines[|lines| - 1]);
      }
    }
  }

  /** A subsequence of b is a subsequence of b extended by one element. */
  lemma {:induction false} SubsequenceOfLonger(a: seq<string>, b: seq<string>, x: string)
    requires IsSubsequence(a, b)
    ensures IsSubsequence(a, b + [x])
    decreases |b|, 1
  {
    var bx := b + [x];
    assert bx[..|bx| - 1] == b;
    if a != [] && a[|a| - 1] == x {
      // Matching x against a's last element needs a's front inside b.
      SubsequenceDropLast(a, b);
    }
  }

  /** Dropping the last element of a subsequence keeps it a subsequence. */
  lemma {:induction false} SubsequenceDropLast(a: seq<string>, b: seq<string>)
    requires a != [] && IsSubsequence(a, b)
    ensures IsSubsequence(a[..|a| - 1], b)
    decreases |b|, 0
  {
    var b' := b[..|b| - 1];
    if a[|a| - 1] == b[|b| - 1] {
      SubsequenceOfLonger(a[..|a| - 1], b', b[|b| - 1]);
      assert b' + [b[|b| - 1]] == b;
    } else {
      SubsequenceDropLast(a, b');
      SubsequenceOfLonger(a[..|a| - 1], b', b[|b| - 1]);
      assert b' + [b[|b| - 1]] == b;
    }
  }

  /** The loop of filter_messages: walk the list and show the lines that match. */
  method FilterLines(lines: seq<string>, search: string) returns (view: seq<string>)
    ensures view == Keep(lines, search)
    ensures forall x :: x in view <==> x in lines && Matches(x, search)
  {
    var needle := ToLower(search);
    view := [];
    var i := 0;
    while i < |lines|
      invariant 0 <= i <= |lines|
      invariant view == Keep(lines[..i], search)
    {
      if Contains(ToLower(lines[i]), needle) {
        view := view + [lines[i]];
      }
      assert lines[..i + 1][..i] == lines[..i];
      i := i + 1;
    }
    assert lines[..i] == lines;
    forall x ensures x in view <==> x in lines && Matches(x, search) {
      KeepMembers(lines, search, x);
    }
  }

  /** load_logs_from_file: every line stripped, and the lines that strip to nothing dropped. */
  function CleanLines(lines: seq<string>): seq<string> {
    if lines == [] then []
    else CleanLines(lines[..|lines| - 1]) + CleanLine(lines[|lines| - 1])
  }

  /** One line of the loaded file: its strip, unless that is empty. */
  function CleanLine(line: string): (r: seq<string>)
    ensures |r| <= 1
    ensures forall x :: x in r ==> x != [] && Strip(x) == x
  {
    var s := Strip(line);
    if s == [] then [] else StripSetNoop(s, Whitespace); [s]
  }

  /** Cleaning one more line appends that line's clean-up. */
  lemma CleanLinesSnoc(front: seq<string>, last: string)
    ensures CleanLines(front + [last]) == CleanLines(front) + CleanLine(last)
  {
    assert (front + [last])[..|front|] == front;
  }

  /** Every loaded line is non-empty and already stripped. */
  lemma {:induction false} CleanLinesStripped(lines: seq<string>)
    ensures |CleanLines(lines)| <= |lines|
    ensures forall x :: x in CleanLines(lines) ==> x != [] && Strip(x) == x
    decreases |lines|
  {
    if lines != [] {
      CleanLinesStripped(lines[..|lines| - 1]);
    }
  }

  /** Cleaning a concatenation cleans each part and keeps them in order. */
  lemma {:induction false} CleanLinesAppend(a: seq<string>, b: seq<string>)
    ensures CleanLines(a + b) == CleanLines(a) + CleanLines(b)
    decreases |b|
  {
    if b == [] {
      assert a + b == a;
    } else {
      var b' := b[..|b| - 1];
      var last := b[|b| - 1];
      SplitLast(a, b);
      CleanLinesSnoc(a + b', last);
      CleanLinesSnoc(b', last);
      CleanLinesAppend(a, b');
      ConcatAssoc(CleanLines(a), CleanLines(b'), CleanLine(last));
    }
  }

  /** Concatenation of lists is associative. */
  lemma ConcatAssoc(x: seq<string>, y: seq<string>, z: seq<string>)
    ensures (x + y) + z == x + (y + z)
  {
  }

  /** A non-empty list is its front followed by its last element. */
  lemma SplitLast(a: seq<string>, b: seq<string>)
    requires b != []
    ensures b == b[..|b| - 1] + [b[|b| - 1]]
    ensures a + b == (a + b[..|b| - 1]) + [b[|b| - 1]]
  {
    assert b == b[..|b| - 1] + [b[|b| - 1]];
  }

  /** A line is dropped exactly when it is whitespace only. */
  lemma CleanLineDropped(line: string)
    ensures CleanLines([line]) == [] <==> forall i :: 0 <= i < |line| ==> line[i] in Whitespace
  {
    assert [line][..0] == [];
    StripSetBlank(line, Whitespace);
  }

  /** Loading an already cleaned list changes nothing: the clean-up is idempotent. */
  lemma {:induction false} CleanLinesIdempotent(lines: seq<string>)
    ensures CleanLines(CleanLines(lines)) == CleanLines(lines)
  {
    CleanLinesStripped(lines);
    CleanLinesFixed(CleanLines(lines));
  }

  /** A list of non-empty stripped lines is left as it is. */
  lemma {:induction false} CleanLinesFixed(lines: seq<string>)
    requires forall x :: x in lines ==> x != [] && Strip(x) == x
    ensures CleanLines(lines) == lines
    decreases |lines|
  {
    if lines != [] {
      var front := lines[..|lines| - 1];
      assert lines == front + [lines[|lines| - 1]];
      forall x | x in front ensures x != [] && Strip(x) == x {
        assert x in lines;
      }
      CleanLinesFixed(front);
    }
  }
}

=== FILE: registry.dfy ===
/**
 * The server manager as a state machine. The state holds the three port-keyed
 * tables of the window (running servers, message lists, names), the order in
 * which servers were registered, the entries of the list of open servers, the
 * selected port, one log file per port and the configuration file. Every
 * operation is a transition from a state to a Reply.
 */
module Registry {
  import opened Wrappers
  import opened Text
  import opened Config
  import Labels
  import Events
  import LogBuffer

  /** socket.bind refuses any port outside 0..MaxPort. */
  const MaxPort := 65535

  /** The mode value that selects the static file handler; any other value serves fixed text. */
  const StaticMode := "static"

  /** What the manager keeps of a running server thread. */
  datatype ServerEntry = ServerEntry(mode: string, staticDir: Option<string>)

  /** The warnings and errors the window reports. */
  datatype Failure =
    | InvalidNameOrPort      // empty name, or a port text that is not all digits
    | DuplicatePort(port: int) // a server already runs on the port
    | MissingDirectory       // static mode without a root directory
    | BindFailed(port: int)  // the listener could not be created
    | NoServerSelected       // a command that needs a selection ran without one
    | ServerNotFound         // the selected port has no running server
    | UnknownPort(port: int) // a message-table lookup that raises KeyError

  datatype Manager = Manager(
    servers: map<int, ServerEntry>,
    messages: map<int, seq<string>>,
    portToName: map<int, string>,
    order: seq<int>,
    labels: seq<string>,
    currentPort: Option<int>,
    logs: map<int, seq<string>>,
    config: ConfigFile)

  /** The state after a command, and the failure it reported if any. */
  datatype Reply = Reply(state: Manager, failure: Option<Failure>)

  /** What the new-server dialog hands over (name and port already stripped). */
  datatype OpenRequest = OpenRequest(name: string, portText: string, mode: string, staticDir: Option<string>)

  /** The lines of logs/servidor_<port>.log; a file that does not exist reads as empty. */
  function LogOf(s: Manager, port: int): seq<string> {
    if port in s.logs then s.logs[port] else []
  }

  /** The name of a port, or the empty string for a port without one. */
  function NameOf(s: Manager, port: int): string {
    if port in s.portToName then s.portToName[port] else ""
  }

  /** The bind oracle: binding succeeds for a port in range the system does not refuse. */
  predicate Binds(port: int, unavailable: set<int>) {
    0 <= port <= MaxPort && port !in unavailable
  }

  // ----- Invariants -----

  ghost predicate NoDuplicates(xs: seq<int>) {
    forall i, j :: 0 <= i < j < |xs| ==> xs[i] != xs[j]
  }

  /** order lists the keys of servers once each, as the dict iterates them. */
  ghost predicate OrderListsServers(s: Manager) {
    NoDuplicates(s.order) && forall p :: p in s.order <==> p in s.servers
  }

  /** The three tables have the same key set. */
  ghost predicate SameKeys(s: Manager) {
    s.messages.Keys == s.servers.Keys && s.portToName.Keys == s.servers.Keys
  }

  ghost predicate PortsInRange(s: Manager) {
    forall p :: p in s.servers ==> 0 <= p <= MaxPort
  }

  /** text is the label of some running server. */
  ghost predicate Listed(s: Manager, text: string) {
    exists p :: p in s.servers && p in s.portToName && 0 <= p && text == Labels.Label(s.portToName[p], p)
  }

  ghost predicate LabelsListed(s: Manager) {
    forall i :: 0 <= i < |s.labels| ==> Listed(s, s.labels[i])
  }

  ghost predicate Valid(s: Manager) {
    SameKeys(s) && OrderListsServers(s) && PortsInRange(s) && LabelsListed(s)
  }

  /**
   * A weaker form of SameKeys that survives every operation, including a
   * historical load on an unregistered port: a running server always has a
   * message list and a name.
   */
  ghost predicate RunningHaveBuffers(s: Manager) {
    s.servers.Keys <= s.messages.Keys && s.portToName.Keys == s.servers.Keys
  }

  ghost predicate IsSuffix(a: seq<string>, b: seq<string>) {
    |a| <= |b| && b[|b| - |a|..] == a
  }

  /** Each in-memory list is the tail of its port's log file. */
  ghost predicate BuffersAreLogSuffixes(s: Manager) {
    forall p :: p in s.messages ==> IsSuffix(s.messages[p], LogOf(s, p))
  }

  ghost predicate SelectionRegistered(s: Manager) {
    s.currentPort.Some? ==> s.currentPort.value in s.servers
  }

  // ----- Start-up and registration -----

  /** The window before load_config: no servers, the files as found on disk. */
  function Empty(config: ConfigFile, logs: map<int, seq<string>>): Manager {
    Manager(map[], map[], map[], [], [], None, logs, config)
  }

  /** Adds a started server to the three tables and to the list. */
  function Register(s: Manager, port: nat, name: string, entry: ServerEntry): Manager {
    s.(servers := s.servers[port := entry],
       messages := s.messages[port := []],
       portToName := s.portToName[port := name],
       order := s.order + [port],
       labels := s.labels + [Labels.Label(name, port)])
  }

  /** The dict order after `del servers[port]`: the other keys keep their order. */
  function Without(xs: seq<int>, port: int): (r: seq<int>)
    ensures forall x :: x in r <==> x in xs && x != port
    ensures NoDuplicates(xs) ==> NoDuplicates(r)
  {
    if xs == [] then []
    else
      var front := xs[..|xs| - 1];
      var last := xs[|xs| - 1];
      assert xs == front + [last];
      assert NoDuplicates(xs) ==> last !in front;
      Without(front, port) + (if last == port then [] else [last])
  }

  /** add_message for one port: the stamped line goes to the list and to the log file. */
  function AddMessage(s: Manager, port: int, timestamp: string, message: string): (r: Reply)
    ensures port !in s.messages <==> r.failure == Some(UnknownPort(port))
    ensures port !in s.messages ==> r.state == s
    ensures port in s.messages ==>
      && r.failure.None?
      && r.state == s.(messages := s.messages[port := s.messages[port] + [Events.Stamp(timestamp, message)]],
                       logs := s.logs[port := LogOf(s, port) + [Events.Stamp(timestamp, message)]])
    ensures forall q :: q != port && q in s.messages ==> q in r.state.messages && r.state.messages[q] == s.messages[q]
    ensures forall q :: q != port ==> LogOf(r.state, q) == LogOf(s, q)
    ensures r.state.servers == s.servers && r.state.portToName == s.portToName && r.state.order == s.order
  {
    if port !in s.messages then
      Reply(s, Some(UnknownPort(port)))
    else
      var line := Events.Stamp(timestamp, message);
      Reply(s.(messages := s.messages[port := s.messages[port] + [line]],
               logs := s.logs[port := LogOf(s, port) + [line]]), None)
  }

  predicate NoDirectory(dir: Option<string>) {
    dir.None? || dir.value == ""
  }

  /** open_server_dialog after the dialog was accepted. */
  function Open(s: Manager, req: OpenRequest, unavailable: set<int>): (r: Reply)
    ensures r.failure == Some(InvalidNameOrPort) <==> req.name == "" || !IsDigits(req.portText)
    ensures r.failure.Some? ==> r.state == s
    ensures r.failure.None? <==>
      && req.name != ""
      && IsDigits(req.portText)
      && DigitsValue(req.portText) !in s.servers
      && !(req.mode == StaticMode && NoDirectory(req.staticDir))
      && Binds(DigitsValue(req.portText), unavailable)
    ensures req.name != "" && IsDigits(req.portText) ==>
      var p := DigitsValue(req.portText);
      && (r.failure == Some(DuplicatePort(p)) <==> p in s.servers)
      && (r.failure == Some(MissingDirectory) <==>
            p !in s.servers && req.mode == StaticMode && NoDirectory(req.staticDir))
      && (r.failure == Some(BindFailed(p)) <==>
            p !in s.servers && !(req.mode == StaticMode && NoDirectory(req.staticDir)) && !Binds(p, unavailable))
    ensures r.failure.None? ==>
      var p := DigitsValue(req.portText);
      r.state == s.(servers := s.servers[p := ServerEntry(req.mode, req.staticDir)],
                    messages := s.messages[p := []],
                    portToName := s.portToName[p := req.name],
                    order := s.order + [p],
                    labels := s.labels + [Labels.Label(req.name, p)])
  {
    if req.name == "" || !IsDigits(req.portText) then
      Reply(s, Some(InvalidNameOrPort))
    else
      var port := DigitsValue(req.portText);
      if port in s.servers then
        Reply(s, Some(DuplicatePort(port)))
      else if req.mode == StaticMode && NoDirectory(req.staticDir) then
        Reply(s, Some(MissingDirectory))
      else if !Binds(port, unavailable) then
        Reply(s, Some(BindFailed(port)))
      else
        Reply(Register(s, port, req.name, ServerEntry(req.mode, req.staticDir)), None)
  }

  /**
   * One GET request reaching the listener of a running server: a simple-mode
   * listener reports it, a static one stays silent.
   */
  function OnRequest(s: Manager, port: int, path: string, host: string, clientPort: nat, timestamp: string): (r: Reply)
    requires port in s.servers
    ensures s.servers[port].mode == StaticMode ==> r == Reply(s, None)
    ensures s.servers[port].mode != StaticMode && port in s.messages ==>
      var line := "[" + timestamp + "] GET " + path + " desde " + host + ":" + Decimal(clientPort);
      && r.failure.None?
      && r.state == s.(messages := s.messages[port := s.messages[port] + [line]],
                       logs := s.logs[port := LogOf(s, port) + [line]])
    ensures s.servers[port].mode != StaticMode && port !in s.messages ==> r == Reply(s, Some(UnknownPort(port)))
  {
    if s.servers[port].mode == StaticMode then
      Reply(s, None)
    else
      var text := Events.RequestText(path, host, clientPort);
      assert Events.Stamp(timestamp, text) == "[" + timestamp + "] GET " + path + " desde " + host + ":" + Decimal(clientPort);
      AddMessage(s, port, timestamp, text)
  }

  /**
   * The end of on_server_selected: the parsed port becomes the selection and
   * filter_messages shows its list, which fails for a port without one.
   */
  function ShowSelection(s: Manager, port: Option<int>): Reply {
    var t := s.(currentPort := port);
    if port.Some? && port.value !in s.messages then Reply(t, Some(UnknownPort(port.value)))
    else Reply(t, None)
  }

  /**
   * on_server_selected: the selected entry's label is parsed for its port.
   * The port is read after the last tag of the label, the tag the label
   * itself adds; reading after the first tag, as the window does, is
   * Labels.ParseLabel.
   */
  function Select(s: Manager, item: Option<nat>): (r: Reply)
    requires item.Some? ==> item.value < |s.labels|
    ensures r.state == s.(currentPort := r.state.currentPort)
    ensures item.None? ==> r == Reply(s.(currentPort := None), None)
    ensures r.failure.Some? <==> r.state.currentPort.Some? && r.state.currentPort.value !in s.messages
    ensures r.failure.Some? ==> r.failure == Some(UnknownPort(r.state.currentPort.value))
  {
    match item
    case None => ShowSelection(s, None)
    case Some(i) => ShowSelection(s, Labels.ParseLabelLast(s.labels[i]))
  }

  /**
   * on_server_selected as the window does it: the port is read after the
   * first tag of the entry, which may lie inside the server's name. The
   * selection is made before filter_messages looks the port up.
   */
  function SelectAsWritten(s: Manager, item: Option<nat>): (r: Reply)
    requires item.Some? ==> item.value < |s.labels|
    ensures r.state == s.(currentPort := r.state.currentPort)
    ensures item.None? ==> r == Reply(s.(currentPort := None), None)
    ensures r.failure.Some? <==> r.state.currentPort.Some? && r.state.currentPort.value !in s.messages
    ensures r.failure.Some? ==> r.failure == Some(UnknownPort(r.state.currentPort.value))
  {
    match item
    case None => ShowSelection(s, None)
    case Some(i) => ShowSelection(s, Labels.ParseLabel(s.labels[i]))
  }

  /** filter_messages: the lines of the selected port that match the search text. */
  method Filter(s: Manager, search: string) returns (r: Result<seq<string>, Failure>)
    ensures s.currentPort.None? ==> r == Ok([])
    ensures s.currentPort.Some? && s.currentPort.value !in s.messages ==> r == Err(UnknownPort(s.currentPort.value))
    ensures s.currentPort.Some? && s.currentPort.value in s.messages ==>
      r == Ok(LogBuffer.Keep(s.messages[s.currentPort.value], search))
    ensures r.Ok? && s.currentPort.Some? ==>
      forall x :: x in r.value <==> x in s.messages[s.currentPort.value] && LogBuffer.Matches(x, search)
  {
    match s.currentPort
    case None =>
      return Ok([]);
    case Some(p) =>
      if p !in s.messages {
        return Err(UnknownPort(p));
      }
      var view := LogBuffer.FilterLines(s.messages[p], search);
      return Ok(view);
  }

  /**
   * clear_logs: after confirmation the log file is truncated, then the list
   * emptied; a selected port without a list still loses its file.
   */
  function ClearLogs(s: Manager, confirmed: bool): (r: Reply)
    ensures s.currentPort.None? <==> r.failure == Some(NoServerSelected)
    ensures s.currentPort.None? || !confirmed ==> r.state == s
    ensures s.currentPort.Some? && !confirmed ==> r == Reply(s, None)
    ensures s.currentPort.Some? && confirmed ==>
      var p := s.currentPort.value;
      && LogOf(r.state, p) == []
      && (forall q :: q != p ==> LogOf(r.state, q) == LogOf(s, q))
      && (p in s.messages ==> r == Reply(s.(logs := s.logs[p := []], messages := s.messages[p := []]), None))
      && (p !in s.messages ==> r == Reply(s.(logs := s.logs[p := []]), Some(UnknownPort(p))))
  {
    match s.currentPort
    case None => Reply(s, Some(NoServerSelected))
    case Some(p) =>
      if !confirmed then
        Reply(s, None)
      else
        var truncated := s.(logs := s.logs[p := []]);
        if p !in s.messages then
          Reply(truncated, Some(UnknownPort(p)))
        else
          Reply(truncated.(messages := s.messages[p := []]), None)
  }

  /**
   * load_logs_from_file: the selected port's list is replaced by the cleaned
   * lines of the chosen file (None when the file dialog is cancelled); the log
   * file is not touched.
   */
  function LoadLogs(s: Manager, file: Option<seq<string>>): (r: Reply)
    ensures s.currentPort.None? <==> r.failure == Some(NoServerSelected)
    ensures r.failure.None? ==> r.state.logs == s.logs && r.state.servers == s.servers
    ensures s.currentPort.Some? && file.Some? ==>
      r.state == s.(messages := s.messages[s.currentPort.value := LogBuffer.CleanLines(file.value)])
    ensures file.None? ==> r.state == s
    ensures s.currentPort.None? ==> r == Reply(s, Some(NoServerSelected))
    ensures s.currentPort.Some? ==> r.failure.None?
  {
    match s.currentPort
    case None => Reply(s, Some(NoServerSelected))
    case Some(p) =>
      match file
      case None => Reply(s, None)
      case Some(lines) => Reply(s.(messages := s.messages[p := LogBuffer.CleanLines(lines)]), None)
  }

  // ----- Configuration -----

  /** The record save_config writes for one running server. */
  function RecordOf(s: Manager, port: int): ConfigRecord
    requires port in s.servers
  {
    ToRecord(Descriptor(NameOf(s, port), port, s.servers[port].mode, s.servers[port].staticDir))
  }

  /** save_config: one record per running server, in the dict's order. */
  function SaveConfig(s: Manager): (r: seq<ConfigRecord>)
    requires OrderListsServers(s)
    ensures |r| == |s.order|
    ensures forall i :: 0 <= i < |r| ==>
      WithDefaults(r[i]) == Descriptor(NameOf(s, s.order[i]), s.order[i], s.servers[s.order[i]].mode, s.servers[s.order[i]].staticDir)
    ensures forall p :: p in s.servers ==> exists i :: 0 <= i < |r| && r[i].port == Some(p)
  {
    var r := seq(|s.order|, i requires 0 <= i < |s.order| => RecordOf(s, s.order[i]));
    assert forall p :: p in s.servers ==> exists i :: 0 <= i < |r| && r[i].port == Some(p) by {
      forall p | p in s.servers ensures exists i :: 0 <= i < |r| && r[i].port == Some(p) {
        var i :| 0 <= i < |s.order| && s.order[i] == p;
        assert r[i].port == Some(p);
      }
    }
    r
  }

  /** closeEvent: the configuration file receives save_config's records. */
  function Shutdown(s: Manager): (r: Manager)
    requires OrderListsServers(s)
    ensures r.config.Parsed? && |r.config.servers| == |s.order|
    ensures r == s.(config := r.config)
    ensures forall i :: 0 <= i < |s.order| ==>
      WithDefaults(r.config.servers[i]) == Descriptor(NameOf(s, s.order[i]), s.order[i], s.servers[s.order[i]].mode, s.servers[s.order[i]].staticDir)
  {
    s.(config := Parsed(SaveConfig(s)))
  }

  /** One record of load_config: skipped when its port is running or will not bind. */
  function RestoreOne(t: Manager, rec: ConfigRecord, unavailable: set<int>): Manager {
    var d := WithDefaults(rec);
    if d.port in t.servers || !Binds(d.port, unavailable) then t
    else Register(t, d.port, d.name, ServerEntry(d.mode, d.staticDir))
  }

  /** load_config's loop over the records, first record first. */
  function RestoreAll(t: Manager, recs: seq<ConfigRecord>, unavailable: set<int>): (r: Manager)
    ensures forall q :: q in t.servers ==> q in r.servers && r.servers[q] == t.servers[q]
    ensures forall q :: q in t.servers && q in t.portToName ==> q in r.portToName && r.portToName[q] == t.portToName[q]
    ensures forall q :: q in t.servers && q in t.messages ==> q in r.messages && r.messages[q] == t.messages[q]
    ensures forall q :: q in r.servers && q !in t.servers ==> Binds(q, unavailable) && q in r.messages && r.messages[q] == []
    ensures r.logs == t.logs && r.currentPort == t.currentPort && r.config == t.config
    ensures forall i :: 0 <= i < |recs| && Binds(WithDefaults(recs[i]).port, unavailable) ==> WithDefaults(recs[i]).port in r.servers
    ensures forall q :: q in r.servers && q !in t.servers ==> StartedByFirstRecord(r, recs, q)
    decreases |recs|
  {
    if recs == [] then t
    else
      var r0 := RestoreAll(t, recs[..|recs| - 1], unavailable);
      RestoreStep(t, r0, recs, unavailable);
      RestoreOne(r0, recs[|recs| - 1], unavailable)
  }

  /**
   * q was started by the first record with port q, and runs with that
   * record's name, mode and directory, defaults filled in.
   */
  ghost predicate StartedByFirstRecord(r: Manager, recs: seq<ConfigRecord>, q: int) {
    exists i :: 0 <= i < |recs| && WithDefaults(recs[i]).port == q
      && (forall j :: 0 <= j < i ==> WithDefaults(recs[j]).port != q)
      && q in r.servers && q in r.portToName
      && r.servers[q] == ServerEntry(WithDefaults(recs[i]).mode, WithDefaults(recs[i]).staticDir)
      && r.portToName[q] == WithDefaults(recs[i]).name
  }

  /** One more record keeps both facts of RestoreAll about which records start servers. */
  lemma RestoreStep(t: Manager, r0: Manager, recs: seq<ConfigRecord>, unavailable: set<int>)
    requires recs != []
    requires forall q :: q in t.servers ==> q in r0.servers
    requires forall i :: 0 <= i < |recs| - 1 && Binds(WithDefaults(recs[i]).port, unavailable) ==> WithDefaults(recs[i]).port in r0.servers
    requires forall q :: q in r0.servers && q !in t.servers ==> StartedByFirstRecord(r0, recs[..|recs| - 1], q)
    ensures var r := RestoreOne(r0, recs[|recs| - 1], unavailable);
      && (forall i :: 0 <= i < |recs| && Binds(WithDefaults(recs[i]).port, unavailable) ==> WithDefaults(recs[i]).port in r.servers)
      && (forall q :: q in r.servers && q !in t.servers ==> StartedByFirstRecord(r, recs, q))
  {
    var k := |recs| - 1;
    var r := RestoreOne(r0, recs[k], unavailable);
    forall q | q in r.servers && q !in t.servers ensures StartedByFirstRecord(r, recs, q) {
      if q in r0.servers {
        StartedKeeps(r0, recs, q, unavailable);
      } else {
        StartedNow(r0, recs, q, unavailable);
      }
    }
  }

  /** A server started by an earlier record keeps its settings through one more record. */
  lemma StartedKeeps(r0: Manager, recs: seq<ConfigRecord>, q: int, unavailable: set<int>)
    requires recs != [] && q in r0.servers
    requires StartedByFirstRecord(r0, recs[..|recs| - 1], q)
    ensures StartedByFirstRecord(RestoreOne(r0, recs[|recs| - 1], unavailable), recs, q)
  {
    var front := recs[..|recs| - 1];
    var r := RestoreOne(r0, recs[|recs| - 1], unavailable);
    var i :| 0 <= i < |front| && WithDefaults(front[i]).port == q
      && (forall j :: 0 <= j < i ==> WithDefaults(front[j]).port != q)
      && q in r0.servers && q in r0.portToName
      && r0.servers[q] == ServerEntry(WithDefaults(front[i]).mode, WithDefaults(front[i]).staticDir)
      && r0.portToName[q] == WithDefaults(front[i]).name;
    assert front[i] == recs[i];
    assert forall j :: 0 <= j < i ==> front[j] == recs[j];
    assert r.servers[q] == r0.servers[q] && r.portToName[q] == r0.portToName[q];
  }

  /** A server the last record starts was named by no earlier record, since every earlier one that binds already runs. */
  lemma StartedNow(r0: Manager, recs: seq<ConfigRecord>, q: int, unavailable: set<int>)
    requires recs != [] && q !in r0.servers && q in RestoreOne(r0, recs[|recs| - 1], unavailable).servers
    requires forall i :: 0 <= i < |recs| - 1 && Binds(WithDefaults(recs[i]).port, unavailable) ==> WithDefaults(recs[i]).port in r0.servers
    ensures StartedByFirstRecord(RestoreOne(r0, recs[|recs| - 1], unavailable), recs, q)
  {
    var k := |recs| - 1;
    assert WithDefaults(recs[k]).port == q && Binds(q, unavailable);
    assert forall j :: 0 <= j < k ==> WithDefaults(recs[j]).port != q;
  }

  /**
   * after is before with some servers started: the order and the list of
   * before are kept, and what follows them are exactly the started servers,
   * in the order they started, each listed under the name it runs with.
   */
  ghost predicate ListsStarted(before: Manager, after: Manager) {
    KeepsPrefixes(before, after) && StartedAreAppended(before, after) && AppendedAreListed(before, after)
  }

  /** The order and the list of before begin those of after, and both grow by the same count. */
  ghost predicate KeepsPrefixes(before: Manager, after: Manager) {
    && |before.order| <= |after.order| && after.order[..|before.order|] == before.order
    && |before.labels| <= |after.labels| && after.labels[..|before.labels|] == before.labels
    && |after.labels| - |before.labels| == |after.order| - |before.order|
  }

  /** Every server of after that before lacks is in the appended part of the order. */
  ghost predicate StartedAreAppended(before: Manager, after: Manager)
    requires |before.order| <= |after.order|
  {
    forall q :: q in after.servers && q !in before.servers ==> q in after.order[|before.order|..]
  }

  /** Every appended port is a newly started server, listed under its name at the matching place. */
  ghost predicate AppendedAreListed(before: Manager, after: Manager)
    requires KeepsPrefixes(before, after)
  {
    forall i :: |before.order| <= i < |after.order| ==>
      && after.order[i] >= 0 && after.order[i] in after.servers && after.order[i] !in before.servers
      && after.order[i] in after.portToName
      && after.labels[|before.labels| + (i - |before.order|)] == Labels.Label(after.portToName[after.order[i]], after.order[i])
  }

  /** load_config's loop only appends the servers it starts, to the order and to the list alike. */
  lemma {:induction false} RestoreAllLists(t: Manager, recs: seq<ConfigRecord>, unavailable: set<int>)
    ensures ListsStarted(t, RestoreAll(t, recs, unavailable))
    decreases |recs|
  {
    if recs == [] {
      assert t.order[..|t.order|] == t.order && t.labels[..|t.labels|] == t.labels;
    } else {
      var r0 := RestoreAll(t, recs[..|recs| - 1], unavailable);
      RestoreAllLists(t, recs[..|recs| - 1], unavailable);
      var d := WithDefaults(recs[|recs| - 1]);
      if d.port !in r0.servers && Binds(d.port, unavailable) {
        var e := ServerEntry(d.mode, d.staticDir);
        PrefixesGrow(t, r0, d.port, d.name, e);
        StartedGrow(t, r0, d.port, d.name, e);
        ListedGrow(t, r0, d.port, d.name, e);
      }
    }
  }

  /** Registering one more server keeps KeepsPrefixes. */
  lemma PrefixesGrow(t: Manager, r0: Manager, port: nat, name: string, e: ServerEntry)
    requires KeepsPrefixes(t, r0)
    ensures KeepsPrefixes(t, Register(r0, port, name, e))
  {
    var r := Register(r0, port, name, e);
    assert r.order[..|t.order|] == r0.order[..|t.order|];
    assert r.labels[..|t.labels|] == r0.labels[..|t.labels|];
  }

  /** Registering one more server keeps StartedAreAppended. */
  lemma StartedGrow(t: Manager, r0: Manager, port: nat, name: string, e: ServerEntry)
    requires |t.order| <= |r0.order| && StartedAreAppended(t, r0)
    ensures StartedAreAppended(t, Register(r0, port, name, e))
  {
    var r := Register(r0, port, name, e);
    assert r.order[|t.order|..] == r0.order[|t.order|..] + [port];
  }

  /** Registering a server that was not running keeps AppendedAreListed. */
  lemma ListedGrow(t: Manager, r0: Manager, port: nat, name: string, e: ServerEntry)
    requires KeepsPrefixes(t, r0) && AppendedAreListed(t, r0)
    requires port !in r0.servers && forall q :: q in t.servers ==> q in r0.servers
    ensures KeepsPrefixes(t, Register(r0, port, name, e))
    ensures AppendedAreListed(t, Register(r0, port, name, e))
  {
    PrefixesGrow(t, r0, port, name, e);
    var r := Register(r0, port, name, e);
    forall i | |t.order| <= i < |r.order|
      ensures r.order[i] >= 0 && r.order[i] in r.servers && r.order[i] !in t.servers && r.order[i] in r.portToName
      ensures r.labels[|t.labels| + (i - |t.order|)] == Labels.Label(r.portToName[r.order[i]], r.order[i])
    {
      if i < |r0.order| {
        assert r.order[i] == r0.order[i] && r.order[i] != port;
      }
    }
  }

  /**
   * load_config: the list is emptied, then every record of a readable file is
   * started unless its port is running or will not bind.
   */
  function LoadConfig(s: Manager, unavailable: set<int>): (r: Manager)
    ensures s.config.Parsed? ==> r == RestoreAll(s.(labels := []), s.config.servers, unavailable)
    ensures !s.config.Parsed? ==> r == s.(labels := [])
    ensures ListsStarted(s.(labels := []), r)
    ensures forall q :: q in s.servers ==> q in r.servers && r.servers[q] == s.servers[q]
    ensures forall q :: q in s.servers && q in s.portToName ==> q in r.portToName && r.portToName[q] == s.portToName[q]
    ensures forall q :: q in s.servers && q in s.messages ==> q in r.messages && r.messages[q] == s.messages[q]
    ensures forall q :: q in r.servers && q !in s.servers ==>
      && s.config.Parsed? && StartedByFirstRecord(r, s.config.servers, q)
      && Binds(q, unavailable) && q in r.messages && r.messages[q] == []
    ensures r.logs == s.logs && r.currentPort == s.currentPort && r.config == s.config
  {
    var t := s.(labels := []);
    match s.config
    case Parsed(recs) =>
      RestoreAllLists(t, recs, unavailable);
      RestoreAll(t, recs, unavailable)
    case _ =>
      RestoreAllLists(t, [], unavailable);
      t
  }

  /** ServerManagerApp.__init__: empty tables, then load_config. */
  function Startup(config: ConfigFile, logs: map<int, seq<string>>, unavailable: set<int>): Manager {
    LoadConfig(Empty(config, logs), unavailable)
  }

  /** The deletions of close_selected_server, before it calls load_config. */
  function Unregister(s: Manager, port: int): Manager {
    s.(servers := s.servers - {port},
       messages := s.messages - {port},
       portToName := s.portToName - {port},
       order := Without(s.order, port),
       labels := [],
       currentPort := None)
  }

  /**
   * close_selected_server as written: stop the selected server, forget it,
   * then call load_config, which empties the list and starts every configured
   * server that is not running, the one just closed included.
   */
  function Close(s: Manager, unavailable: set<int>): (r: Reply)
    ensures s.currentPort.None? <==> r.failure == Some(NoServerSelected)
    ensures (s.currentPort.Some? && s.currentPort.value !in s.servers) <==> r.failure == Some(ServerNotFound)
    ensures r.failure.Some? ==> r.state == s
    ensures r.failure.None? ==>
      var p := s.currentPort.value;
      && r.state.currentPort.None?
      && r.state.logs == s.logs
      && (forall q :: q in s.servers && q != p ==> q in r.state.servers && r.state.servers[q] == s.servers[q])
      && (forall q :: q in s.servers && q in s.messages && q != p ==> q in r.state.messages && r.state.messages[q] == s.messages[q])
      && r.state.config == s.config
      && (forall q :: q in s.servers && q in s.portToName && q != p ==> q in r.state.portToName && r.state.portToName[q] == s.portToName[q])
      && (p in r.state.servers ==>
            && s.config.Parsed? && Binds(p, unavailable)
            && (exists i :: 0 <= i < |s.config.servers| && WithDefaults(s.config.servers[i]).port == p)
            && p in r.state.messages && r.state.messages[p] == [])
    ensures s.currentPort.Some? && s.currentPort.value in s.servers ==> r.failure.None?
    ensures r.failure.None? ==>
      forall q :: q in r.state.servers && (q !in s.servers || q == s.currentPort.value) ==>
        && s.config.Parsed? && StartedByFirstRecord(r.state, s.config.servers, q)
        && q in r.state.messages && r.state.messages[q] == []
    ensures r.failure.None? ==> ListsStarted(Unregister(s, s.currentPort.value), r.state)
  {
    match s.currentPort
    case None => Reply(s, Some(NoServerSelected))
    case Some(p) =>
      if p !in s.servers then Reply(s, Some(ServerNotFound))
      else
        ReloadAfterUnregister(s, p, unavailable);
        Reply(LoadConfig(Unregister(s, p), unavailable), None)
  }

  /** What load_config leaves after the closed port p was forgotten. */
  lemma ReloadAfterUnregister(s: Manager, p: int, unavailable: set<int>)
    ensures var r := LoadConfig(Unregister(s, p), unavailable);
      && r.currentPort.None? && r.logs == s.logs && r.config == s.config
      && (forall q :: q in s.servers && q != p ==> q in r.servers && r.servers[q] == s.servers[q])
      && (forall q :: q in s.servers && q in s.messages && q != p ==> q in r.messages && r.messages[q] == s.messages[q])
      && (forall q :: q in s.servers && q in s.portToName && q != p ==> q in r.portToName && r.portToName[q] == s.portToName[q])
      && (p in r.servers ==>
            && s.config.Parsed? && Binds(p, unavailable)
            && (exists i :: 0 <= i < |s.config.servers| && WithDefaults(s.config.servers[i]).port == p)
            && p in r.messages && r.messages[p] == [])
      && (forall q :: q in r.servers && (q !in s.servers || q == p) ==>
            && s.config.Parsed? && StartedByFirstRecord(r, s.config.servers, q)
            && q in r.messages && r.messages[q] == [])
      && ListsStarted(Unregister(s, p), r)
  {
    var t := Unregister(s, p);
    assert t.(labels := []) == t;
  }

  /** The list entries of the given servers, in the given order. */
  function LabelsOf(s: Manager, ports: seq<int>): (r: seq<string>)
    requires forall i :: 0 <= i < |ports| ==> ports[i] >= 0
    ensures |r| == |ports|
    ensures forall i :: 0 <= i < |ports| ==> r[i] == Labels.Label(NameOf(s, ports[i]), ports[i])
  {
    seq(|ports|, i requires 0 <= i < |ports| => Labels.Label(NameOf(s, ports[i]), ports[i]))
  }

  /**
   * The corrected close: forget the selected server and list every server
   * still running, without restarting configured ones.
   */
  function CloseAndRelist(s: Manager): (r: Reply)
    requires Valid(s)
    ensures s.currentPort.None? <==> r.failure == Some(NoServerSelected)
    ensures (s.currentPort.Some? && s.currentPort.value !in s.servers) <==> r.failure == Some(ServerNotFound)
    ensures s.currentPort.Some? && s.currentPort.value in s.servers ==> r.failure.None?
    ensures r.failure.Some? ==> r.state == s
    ensures r.failure.None? ==>
      var p := s.currentPort.value;
      && r.state == s.(servers := s.servers - {p},
                       messages := s.messages - {p},
                       portToName := s.portToName - {p},
                       order := Without(s.order, p),
                       labels := r.state.labels,
                       currentPort := None)
      && |r.state.labels| == |r.state.order|
      && (forall q :: q in r.state.servers <==> q in r.state.order)
      && (forall i :: 0 <= i < |r.state.order| ==>
            r.state.labels[i] == Labels.Label(r.state.portToName[r.state.order[i]], r.state.order[i]))
  {
    match s.currentPort
    case None => Reply(s, Some(NoServerSelected))
    case Some(p) =>
      if p !in s.servers then Reply(s, Some(ServerNotFound))
      else
        var t := Unregister(s, p);
        assert forall i :: 0 <= i < |t.order| ==> t.order[i] in s.servers by {
          forall i | 0 <= i < |t.order| ensures t.order[i] in s.servers {
            assert t.order[i] in t.order;
          }
        }
        Reply(t.(labels := LabelsOf(t, t.order)), None)
  }
}

=== FILE: registry_properties.dfy ===
/**
 * The invariants every operation of the manager preserves, the suffix
 * relation between message lists and log files, and the save/load round trip
 * of the configuration.
 */
module RegistryProperties {
  import opened Wrappers
  import opened Text
  import opened Config
  import Labels
  import Events
  import LogBuffer
  import opened Registry

  /** Registering a fresh port that binds keeps the tables in step. */
  lemma RegisterKeepsValid(s: Manager, port: nat, name: string, entry: ServerEntry)
    requires Valid(s) && port !in s.servers && port <= MaxPort
    ensures Valid(Register(s, port, name, entry))
    ensures BuffersAreLogSuffixes(s) ==> BuffersAreLogSuffixes(Register(s, port, name, entry))
  {
    var r := Register(s, port, name, entry);
    assert port !in s.order;
    forall i | 0 <= i < |r.labels|
      ensures Listed(r, r.labels[i])
    {
      if i < |s.labels| {
        assert Listed(s, s.labels[i]);
        var q :| q in s.servers && q in s.portToName && 0 <= q && s.labels[i] == Labels.Label(s.portToName[q], q);
        assert q in r.servers && r.portToName[q] == s.portToName[q] && r.labels[i] == s.labels[i];
      } else {
        assert r.labels[i] == Labels.Label(name, port) && r.portToName[port] == name;
      }
    }
    if BuffersAreLogSuffixes(s) {
      forall p | p in r.messages ensures IsSuffix(r.messages[p], LogOf(r, p)) {
        if p != port {
          assert r.messages[p] == s.messages[p] && LogOf(r, p) == LogOf(s, p);
        }
      }
    }
  }

  /** Validity depends only on the tables, the order and the list, not on lists' contents or files. */
  lemma ValidCarriesOver(s: Manager, r: Manager)
    requires Valid(s)
    requires r.servers == s.servers && r.portToName == s.portToName && r.order == s.order
    requires r.labels == s.labels && r.messages.Keys == s.messages.Keys
    ensures Valid(r)
  {
    forall i | 0 <= i < |r.labels| ensures Listed(r, r.labels[i]) {
      assert Listed(s, s.labels[i]);
    }
  }

  /** An open either changes nothing or registers one port in all three tables. */
  lemma OpenKeepsInvariants(s: Manager, req: OpenRequest, unavailable: set<int>)
    requires Valid(s) && BuffersAreLogSuffixes(s)
    ensures Valid(Open(s, req, unavailable).state)
    ensures BuffersAreLogSuffixes(Open(s, req, unavailable).state)
  {
    var r := Open(s, req, unavailable);
    if r.failure.None? {
      RegisterKeepsValid(s, DigitsValue(req.portText), req.name, ServerEntry(req.mode, req.staticDir));
    }
  }

  /** Appending the same line to a list and to a file keeps the list a tail of the file. */
  lemma SuffixExtends(a: seq<string>, b: seq<string>, line: string)
    requires IsSuffix(a, b)
    ensures IsSuffix(a + [line], b + [line])
  {
    assert (b + [line])[|b + [line]| - |a + [line]|..] == b[|b| - |a|..] + [line];
  }

  /** A new message keeps every list the tail of its log file, and the tables in step. */
  lemma AddMessageKeepsInvariants(s: Manager, port: int, timestamp: string, message: string)
    requires Valid(s) && BuffersAreLogSuffixes(s)
    ensures Valid(AddMessage(s, port, timestamp, message).state)
    ensures BuffersAreLogSuffixes(AddMessage(s, port, timestamp, message).state)
  {
    var r := AddMessage(s, port, timestamp, message).state;
    if port in s.messages {
      var line := Events.Stamp(timestamp, message);
      assert r.messages == s.messages[port := s.messages[port] + [line]];
      assert r.logs == s.logs[port := LogOf(s, port) + [line]];
      ValidCarriesOver(s, r);
      SuffixExtends(s.messages[port], LogOf(s, port), line);
      forall p | p in r.messages ensures IsSuffix(r.messages[p], LogOf(r, p)) {
        if p != port {
          assert r.messages[p] == s.messages[p] && LogOf(r, p) == LogOf(s, p);
        }
      }
    }
  }

  /** A request only ever lands in the list and the log of the port that received it. */
  lemma EventsStayOnTheirPort(s: Manager, port: int, other: int, path: string, host: string, clientPort: nat, timestamp: string)
    requires port in s.servers && other != port
    ensures var r := OnRequest(s, port, path, host, clientPort, timestamp).state;
      && LogOf(r, other) == LogOf(s, other)
      && (other in s.messages ==> other in r.messages && r.messages[other] == s.messages[other])
  {
  }

  /** Clearing keeps every list the tail of its log file: both become empty. */
  lemma ClearLogsKeepsInvariants(s: Manager, confirmed: bool)
    requires Valid(s) && BuffersAreLogSuffixes(s)
    ensures Valid(ClearLogs(s, confirmed).state)
    ensures BuffersAreLogSuffixes(ClearLogs(s, confirmed).state)
  {
    var r := ClearLogs(s, confirmed).state;
    if s.currentPort.Some? && confirmed {
      var p := s.currentPort.value;
      ValidCarriesOver(s, r);
      forall q | q in r.messages ensures IsSuffix(r.messages[q], LogOf(r, q)) {
        if q != p {
          assert r.messages[q] == s.messages[q] && LogOf(r, q) == LogOf(s, q);
        }
      }
    }
  }

  /** Forgetting a running port keeps the tables in step. */
  lemma UnregisterKeepsValid(s: Manager, port: int)
    requires Valid(s) && port in s.servers
    ensures Valid(Unregister(s, port))
    ensures BuffersAreLogSuffixes(s) ==> BuffersAreLogSuffixes(Unregister(s, port))
  {
  }

  /** Restoring records keeps the tables in step and every list a tail of its file. */
  lemma {:induction false} RestoreAllKeepsValid(t: Manager, recs: seq<ConfigRecord>, unavailable: set<int>)
    requires Valid(t)
    ensures Valid(RestoreAll(t, recs, unavailable))
    ensures BuffersAreLogSuffixes(t) ==> BuffersAreLogSuffixes(RestoreAll(t, recs, unavailable))
    decreases |recs|
  {
    if recs != [] {
      var front := RestoreAll(t, recs[..|recs| - 1], unavailable);
      RestoreAllKeepsValid(t, recs[..|recs| - 1], unavailable);
      var d := WithDefaults(recs[|recs| - 1]);
      if d.port !in front.servers && Binds(d.port, unavailable) {
        RegisterKeepsValid(front, d.port, d.name, ServerEntry(d.mode, d.staticDir));
      }
    }
  }

  lemma LoadConfigKeepsValid(s: Manager, unavailable: set<int>)
    requires Valid(s)
    ensures Valid(LoadConfig(s, unavailable))
    ensures BuffersAreLogSuffixes(s) ==> BuffersAreLogSuffixes(LoadConfig(s, unavailable))
  {
    var t := s.(labels := []);
    assert Valid(t);
    if s.config.Parsed? {
      RestoreAllKeepsValid(t, s.config.servers, unavailable);
    }
  }

  /** The window starts with the tables in step and every list a tail of its file. */
  lemma StartupValid(config: ConfigFile, logs: map<int, seq<string>>, unavailable: set<int>)
    ensures Valid(Startup(config, logs, unavailable))
    ensures BuffersAreLogSuffixes(Startup(config, logs, unavailable))
  {
    LoadConfigKeepsValid(Empty(config, logs), unavailable);
  }

  /** Closing (as written, with its reload) keeps the tables in step and lists tails of files. */
  lemma CloseKeepsInvariants(s: Manager, unavailable: set<int>)
    requires Valid(s) && BuffersAreLogSuffixes(s)
    ensures Valid(Close(s, unavailable).state)
    ensures BuffersAreLogSuffixes(Close(s, unavailable).state)
  {
    if s.currentPort.Some? && s.currentPort.value in s.servers {
      var t := Unregister(s, s.currentPort.value);
      UnregisterKeepsValid(s, s.currentPort.value);
      LoadConfigKeepsValid(t, unavailable);
    }
  }

  /** The corrected close keeps the tables in step. */
  lemma CloseAndRelistKeepsValid(s: Manager)
    requires Valid(s)
    ensures Valid(CloseAndRelist(s).state)
    ensures BuffersAreLogSuffixes(s) ==> BuffersAreLogSuffixes(CloseAndRelist(s).state)
  {
    var r := CloseAndRelist(s);
    if r.failure.None? {
      var t := r.state;
      forall i | 0 <= i < |t.labels| ensures Listed(t, t.labels[i]) {
        var p := t.order[i];
        assert p in t.servers && p in t.portToName && 0 <= p;
        assert t.labels[i] == Labels.Label(t.portToName[p], p);
      }
    }
  }

  /** Selecting an entry of the list selects the running server the entry was added for. */
  lemma SelectFindsServer(s: Manager, i: nat)
    requires Valid(s) && i < |s.labels|
    ensures var r := Select(s, Some(i));
      && r.failure.None?
      && r.state.currentPort.Some?
      && r.state.currentPort.value in s.servers
      && s.labels[i] == Labels.Label(s.portToName[r.state.currentPort.value], r.state.currentPort.value)
  {
    assert Listed(s, s.labels[i]);
    var p :| p in s.servers && p in s.portToName && 0 <= p && s.labels[i] == Labels.Label(s.portToName[p], p);
    Labels.LabelRoundTripAnyName(s.portToName[p], p);
  }

  /** No running server's name contains the tag "Puerto:". */
  ghost predicate NamesUntagged(s: Manager) {
    forall p :: p in s.portToName ==> !Contains(s.portToName[p], Labels.PortTag)
  }

  /** While no name contains the tag, the window's own selection and the corrected one agree. */
  lemma SelectAsWrittenAgrees(s: Manager, item: Option<nat>)
    requires Valid(s) && NamesUntagged(s) && (item.Some? ==> item.value < |s.labels|)
    ensures SelectAsWritten(s, item) == Select(s, item)
  {
    if item.Some? {
      var i := item.value;
      assert Listed(s, s.labels[i]);
      var p :| p in s.servers && p in s.portToName && 0 <= p && s.labels[i] == Labels.Label(s.portToName[p], p);
      Labels.LabelRoundTrip(s.portToName[p], p);
      Labels.LabelRoundTripAnyName(s.portToName[p], p);
    }
  }

  /** In a valid window every selection is a running server or none, and showing its list succeeds. */
  lemma SelectKeepsSelectionRegistered(s: Manager, item: Option<nat>)
    requires Valid(s) && (item.Some? ==> item.value < |s.labels|)
    ensures Select(s, item).failure.None?
    ensures Valid(Select(s, item).state) && SelectionRegistered(Select(s, item).state)
  {
    if item.Some? {
      SelectFindsServer(s, item.value);
    }
    ValidCarriesOver(s, Select(s, item).state);
  }

  /** Loading a file on a running port keeps the tables in step. */
  lemma LoadLogsKeepsValid(s: Manager, file: Option<seq<string>>)
    requires Valid(s) && SelectionRegistered(s)
    ensures Valid(LoadLogs(s, file).state)
  {
    ValidCarriesOver(s, LoadLogs(s, file).state);
  }

  /** Whatever is selected, a running server keeps its list and its name. */
  lemma LoadLogsKeepsBuffers(s: Manager, file: Option<seq<string>>)
    requires RunningHaveBuffers(s)
    ensures RunningHaveBuffers(LoadLogs(s, file).state)
  {
  }

  /**
   * A historical load replaces a list by lines that need not be the tail of
   * the port's log file: a non-blank line loaded for a port whose log is
   * empty is already a counterexample.
   */
  lemma LoadLogsBreaksLogSuffix(s: Manager, line: string)
    requires s.currentPort.Some? && LogOf(s, s.currentPort.value) == []
    requires Strip(line) != []
    ensures !BuffersAreLogSuffixes(LoadLogs(s, Some([line])).state)
  {
    var p := s.currentPort.value;
    var r := LoadLogs(s, Some([line])).state;
    assert LogBuffer.CleanLines([line]) == [Strip(line)] by {
      assert [line][..0] == [];
      assert LogBuffer.CleanLine(line) == [Strip(line)];
    }
    assert p in r.messages && |r.messages[p]| == 1;
    assert LogOf(r, p) == [];
    assert !IsSuffix(r.messages[p], LogOf(r, p));
  }

  /**
   * A historical load on a selected port that is not running gives the
   * message table a key the server table lacks.
   */
  lemma LoadLogsOnUnknownPortSplitsKeys(s: Manager, lines: seq<string>)
    requires Valid(s) && s.currentPort.Some? && s.currentPort.value !in s.servers
    ensures !SameKeys(LoadLogs(s, Some(lines)).state)
  {
    var r := LoadLogs(s, Some(lines)).state;
    assert s.currentPort.value in r.messages.Keys;
  }

  // ----- Save and restore -----

  /** r lists the first k servers of s, in order and with their labels. */
  ghost predicate ListsPrefix(s: Manager, r: Manager, k: nat)
    requires k <= |s.order|
  {
    && r.order == s.order[..k]
    && |r.labels| == k
    && (forall i :: 0 <= i < k ==>
          s.order[i] in s.portToName && s.order[i] >= 0 &&
          r.labels[i] == Labels.Label(s.portToName[s.order[i]], s.order[i]))
  }

  /** r runs exactly the first k servers of s, with their settings and empty lists. */
  ghost predicate RunsPrefix(s: Manager, r: Manager, k: nat)
    requires k <= |s.order|
  {
    && (forall p :: p in r.servers <==> p in s.order[..k])
    && SameKeys(r)
    && (forall p :: p in r.servers ==>
          && p in s.servers && p in s.portToName
          && r.servers[p] == s.servers[p]
          && r.portToName[p] == s.portToName[p]
          && r.messages[p] == [])
  }

  /** r holds the first k servers of s, as a fresh load of its records would. */
  ghost predicate RebuiltPrefix(s: Manager, r: Manager, k: nat)
    requires k <= |s.order|
  {
    ListsPrefix(s, r, k) && RunsPrefix(s, r, k)
  }

  lemma RegisterListsNext(s: Manager, r0: Manager, k: nat)
    requires OrderListsServers(s) && SameKeys(s) && PortsInRange(s) && k < |s.order|
    requires ListsPrefix(s, r0, k)
    ensures s.order[k] in s.servers && s.order[k] >= 0
    ensures ListsPrefix(s, Register(r0, s.order[k], s.portToName[s.order[k]], s.servers[s.order[k]]), k + 1)
  {
    var p := s.order[k];
    assert p in s.order;
    var r := Register(r0, p, s.portToName[p], s.servers[p]);
    assert s.order[..k + 1] == s.order[..k] + [p];
    forall i | 0 <= i < k + 1
      ensures s.order[i] in s.portToName && s.order[i] >= 0
      ensures r.labels[i] == Labels.Label(s.portToName[s.order[i]], s.order[i])
    {
      if i < k {
        assert r.labels[i] == r0.labels[i];
      }
    }
  }

  lemma RegisterRunsNext(s: Manager, r0: Manager, k: nat)
    requires OrderListsServers(s) && SameKeys(s) && PortsInRange(s) && k < |s.order|
    requires RunsPrefix(s, r0, k)
    ensures s.order[k] in s.servers && s.order[k] >= 0
    ensures RunsPrefix(s, Register(r0, s.order[k], s.portToName[s.order[k]], s.servers[s.order[k]]), k + 1)
  {
    var p := s.order[k];
    assert p in s.order;
    var r := Register(r0, p, s.portToName[p], s.servers[p]);
    assert s.order[..k + 1] == s.order[..k] + [p];
    forall q ensures q in r.servers <==> q in s.order[..k + 1] {
      assert q in r.servers <==> q in r0.servers || q == p;
    }
    assert SameKeys(r);
    forall q | q in r.servers
      ensures q in s.servers && q in s.portToName
      ensures r.servers[q] == s.servers[q] && r.portToName[q] == s.portToName[q] && r.messages[q] == []
    {
      if q != p {
        assert q in r0.servers;
      }
    }
  }

  /** Registering the next server of s extends the rebuilt prefix by one. */
  lemma RegisterExtendsPrefix(s: Manager, r0: Manager, k: nat)
    requires OrderListsServers(s) && SameKeys(s) && PortsInRange(s) && k < |s.order|
    requires RebuiltPrefix(s, r0, k)
    ensures s.order[k] in s.servers && s.order[k] >= 0
    ensures RebuiltPrefix(s, Register(r0, s.order[k], s.portToName[s.order[k]], s.servers[s.order[k]]), k + 1)
  {
    RegisterListsNext(s, r0, k);
    RegisterRunsNext(s, r0, k);
  }

  /** The k-th saved record of s, restored after the first k, registers s.order[k] as it was. */
  lemma RestoreSavedRecord(s: Manager, r0: Manager, k: nat, unavailable: set<int>)
    requires OrderListsServers(s) && SameKeys(s) && PortsInRange(s)
    requires forall p :: p in s.servers ==> p !in unavailable
    requires k < |s.order|
    requires RebuiltPrefix(s, r0, k)
    ensures s.order[k] in s.servers && s.order[k] >= 0
    ensures RestoreOne(r0, SaveConfig(s)[k], unavailable)
         == Register(r0, s.order[k], s.portToName[s.order[k]], s.servers[s.order[k]])
  {
    var p := s.order[k];
    assert p in s.order;
    assert p !in s.order[..k] by {
      forall i | 0 <= i < k ensures s.order[..k][i] != p {
        assert s.order[i] != s.order[k];
      }
    }
    assert p !in r0.servers;
    assert WithDefaults(SaveConfig(s)[k]) == Descriptor(s.portToName[p], p, s.servers[p].mode, s.servers[p].staticDir);
  }

  /** Restoring the first k saved records into an empty window rebuilds the first k servers. */
  lemma {:induction false} RestoreSavedPrefix(s: Manager, e: Manager, k: nat, unavailable: set<int>)
    requires OrderListsServers(s) && SameKeys(s) && PortsInRange(s)
    requires forall p :: p in s.servers ==> p !in unavailable
    requires e.servers == map[] && e.messages == map[] && e.portToName == map[] && e.order == [] && e.labels == []
    requires k <= |s.order|
    ensures RebuiltPrefix(s, RestoreAll(e, SaveConfig(s)[..k], unavailable), k)
    decreases k
  {
    if k > 0 {
      RestoreSavedPrefix(s, e, k - 1, unavailable);
      RestoreSavedNext(s, e, k - 1, unavailable);
    }
  }

  /** One more saved record extends the rebuilt prefix by one server. */
  lemma RestoreSavedNext(s: Manager, e: Manager, k: nat, unavailable: set<int>)
    requires OrderListsServers(s) && SameKeys(s) && PortsInRange(s)
    requires forall p :: p in s.servers ==> p !in unavailable
    requires k < |s.order|
    requires RebuiltPrefix(s, RestoreAll(e, SaveConfig(s)[..k], unavailable), k)
    ensures RebuiltPrefix(s, RestoreAll(e, SaveConfig(s)[..k + 1], unavailable), k + 1)
  {
    var recs := SaveConfig(s);
    var r0 := RestoreAll(e, recs[..k], unavailable);
    RestoreAllSnoc(e, recs, k, unavailable);
    RestoreSavedRecord(s, r0, k, unavailable);
    RegisterExtendsPrefix(s, r0, k);
  }

  /** Restoring k + 1 records is restoring k and then the next one. */
  lemma RestoreAllSnoc(t: Manager, recs: seq<ConfigRecord>, k: nat, unavailable: set<int>)
    requires k < |recs|
    ensures RestoreAll(t, recs[..k + 1], unavailable)
         == RestoreOne(RestoreAll(t, recs[..k], unavailable), recs[k], unavailable)
  {
    assert recs[..k + 1][..k] == recs[..k];
  }

  /** A prefix rebuilt to full length holds exactly the servers of s. */
  lemma RebuiltWhole(s: Manager, t: Manager)
    requires Valid(s)
    requires RebuiltPrefix(s, t, |s.order|)
    ensures t.servers == s.servers && t.portToName == s.portToName && t.order == s.order
    ensures t.messages.Keys == s.servers.Keys && forall p :: p in t.messages ==> t.messages[p] == []
  {
    assert s.order[..|s.order|] == s.order;
    assert RunsPrefix(s, t, |s.order|);
    forall p ensures p in t.servers <==> p in s.servers {
      assert p in t.servers <==> p in s.order;
    }
    assert t.servers.Keys == s.servers.Keys;
    forall p | p in s.servers
      ensures t.servers[p] == s.servers[p] && t.portToName[p] == s.portToName[p]
    {
    }
    assert t.servers == s.servers;
    assert t.portToName == s.portToName;
  }

  /**
   * Saving the running servers and loading the file into a fresh window, with
   * every port free to bind, restarts the same servers under the same names
   * in the same order, and lists them in that order.
   */
  lemma SaveLoadRoundTrip(s: Manager, logs: map<int, seq<string>>, unavailable: set<int>)
    requires Valid(s)
    requires forall p :: p in s.servers ==> p !in unavailable
    ensures var t := Startup(Shutdown(s).config, logs, unavailable);
      && t.servers == s.servers
      && t.portToName == s.portToName
      && t.order == s.order
      && t.messages.Keys == s.servers.Keys
      && (forall p :: p in t.messages ==> t.messages[p] == [])
      && |t.labels| == |s.order|
      && (forall i :: 0 <= i < |s.order| ==>
            s.order[i] in s.portToName && s.order[i] >= 0 &&
            t.labels[i] == Labels.Label(s.portToName[s.order[i]], s.order[i]))
  {
    var t := Startup(Shutdown(s).config, logs, unavailable);
    StartupRebuildsSaved(s, logs, unavailable);
    RebuiltWhole(s, t);
    assert ListsPrefix(s, t, |s.order|);
  }

  /** Loading the saved file into a fresh window rebuilds every server of s. */
  lemma StartupRebuildsSaved(s: Manager, logs: map<int, seq<string>>, unavailable: set<int>)
    requires OrderListsServers(s) && SameKeys(s) && PortsInRange(s)
    requires forall p :: p in s.servers ==> p !in unavailable
    ensures RebuiltPrefix(s, Startup(Shutdown(s).config, logs, unavailable), |s.order|)
  {
    StartupOfSaved(s, logs, unavailable);
    RestoreSavedPrefix(s, Empty(Parsed(SaveConfig(s)), logs), |s.order|, unavailable);
  }

  /** Start-up from the saved file is a restore of every saved record into an empty window. */
  lemma StartupOfSaved(s: Manager, logs: map<int, seq<string>>, unavailable: set<int>)
    requires OrderListsServers(s)
    ensures Startup(Shutdown(s).config, logs, unavailable)
         == RestoreAll(Empty(Parsed(SaveConfig(s)), logs), SaveConfig(s)[..|s.order|], unavailable)
  {
    var e := Empty(Parsed(SaveConfig(s)), logs);
    assert e.(labels := []) == e;
    assert SaveConfig(s)[..|s.order|] == SaveConfig(s);
  }
}

=== FILE: scenarios.dfy ===
/**
 * Concrete runs of the manager: a first start without a configuration file,
 * one simple-mode server on 8080, one request from 127.0.0.1:5000, and a
 * second attempt to open the same port.
 */
module Scenarios {
  import opened Wrappers
  import opened Text
  import opened Config
  import Events
  import opened Registry

  lemma Digits8080()
    ensures IsDigits("8080") && DigitsValue("8080") == 8080
  {
    assert "8080"[..3] == "808" && "808"[..2] == "80" && "80"[..1] == "8" && "8"[..0] == [];
  }

  lemma Decimal5000()
    ensures Decimal(5000) == "5000"
  {
    assert IsDigits("5000");
    assert "5000"[..3] == "500" && "500"[..2] == "50" && "50"[..1] == "5" && "5"[..0] == [];
    assert DigitsValue("5000") == 5000;
    DecimalOfDigits("5000");
  }

  lemma Decimal8080()
    ensures Decimal(8080) == "8080"
  {
    Digits8080();
    DecimalOfDigits("8080");
  }

  /** The window as it comes up with no configuration file and no log files. */
  function FirstStart(): Manager {
    Startup(Missing, map[], {})
  }

  const OpenA := OpenRequest("A", "8080", "simple", None)

  /** Opening "A" on 8080 in simple mode starts it with an empty list and one list entry. */
  lemma OpenAOn8080()
    ensures var r := Open(FirstStart(), OpenA, {});
      && r.failure.None?
      && r.state.servers == map[8080 := ServerEntry("simple", None)]
      && r.state.messages == map[8080 := []]
      && r.state.portToName == map[8080 := "A"]
      && r.state.labels == ["A (Puerto: 8080)"]
  {
    Digits8080();
    Decimal8080();
    assert "simple" != StaticMode;  // the mode is not static, so no directory is needed
    assert FirstStart() == Empty(Missing, map[]);
    assert Labels.Label("A", 8080) == "A (Puerto: 8080)";
  }

  /** A request from 127.0.0.1:5000 for /foo is answered with the greeting and logged with its stamp. */
  lemma RequestOn8080(timestamp: string)
    ensures var s := Open(FirstStart(), OpenA, {}).state;
      && 8080 in s.servers
      && var r := OnRequest(s, 8080, "/foo", "127.0.0.1", 5000, timestamp);
      && r.failure.None?
      && 8080 in r.state.messages
      && r.state.messages[8080] == ["[" + timestamp + "] GET /foo desde 127.0.0.1:5000"]
      && LogOf(r.state, 8080) == ["[" + timestamp + "] GET /foo desde 127.0.0.1:5000"]
    ensures Events.SimpleGet(8080, "/foo", "127.0.0.1", 5000).body == "Hola desde servidor en puerto 8080"
  {
    OpenAOn8080();
    Decimal5000();
    Decimal8080();
    var s := Open(FirstStart(), OpenA, {}).state;
    assert s.servers[8080].mode != StaticMode by {
      assert "simple" != StaticMode;  // the mode is not static, so no directory is needed
    }
    assert s.logs == map[];
    StampedFoo(timestamp);
    assert Events.ResponseBody(8080) == "Hola desde servidor en puerto 8080";
  }

  lemma StampedFoo(timestamp: string)
    ensures "[" + timestamp + "] GET " + "/foo" + " desde " + "127.0.0.1" + ":" + Decimal(5000)
         == "[" + timestamp + "] GET /foo desde 127.0.0.1:5000"
  {
    Decimal5000();
    var h := "[" + timestamp;
    var a1, a2, a3, a4, a5, a6 := "] GET ", "/foo", " desde ", "127.0.0.1", ":", "5000";
    StringAssoc(h, a1, a2);
    StringAssoc(h, a1 + a2, a3);
    StringAssoc(h, a1 + a2 + a3, a4);
    StringAssoc(h, a1 + a2 + a3 + a4, a5);
    StringAssoc(h, a1 + a2 + a3 + a4 + a5, a6);
    assert a1 + a2 + a3 + a4 + a5 + a6 == "] GET /foo desde 127.0.0.1:5000";
    StringAssoc("[", timestamp, "] GET /foo desde 127.0.0.1:5000");
  }

  /** Concatenation of strings is associative. */
  lemma StringAssoc(a: string, b: string, c: string)
    ensures (a + b) + c == a + (b + c)
  {
  }

  const OpenTagged := OpenRequest("Puerto: 5 Puerto:", "80", "simple", None)

  lemma Digits80()
    ensures IsDigits("80") && DigitsValue("80") == 80
  {
    assert "80"[..1] == "8" && "8"[..0] == [];
  }

  /** The window after opening the tagged name on port 80. */
  const TaggedWindow := Manager(map[80 := ServerEntry("simple", None)], map[80 := []],
    map[80 := "Puerto: 5 Puerto:"], [80], [Labels.Label("Puerto: 5 Puerto:", 80)], None, map[], Missing)

  /** At first start the tagged name opens on port 80 like any other name. */
  lemma OpenTaggedOn80()
    ensures Open(FirstStart(), OpenTagged, {}) == Reply(TaggedWindow, None)
  {
    Digits80();
    assert "simple" != StaticMode;  // the mode is not static, so no directory is needed
    assert FirstStart() == Empty(Missing, map[]);
  }

  /**
   * With a server named "Puerto: 5 Puerto:" on port 80, the window's selection
   * of its entry picks port 5, which is not running, and showing its list
   * fails on the missing key in the same click. The corrected selection picks
   * 80 and succeeds. Were the window to carry on after that failure, a
   * historical load would give the message table a key the server table lacks.
   */
  lemma SelectTaggedName(lines: seq<string>)
    ensures Open(FirstStart(), OpenTagged, {}).state == TaggedWindow
    ensures var s := TaggedWindow;
      && SelectAsWritten(s, Some(0)) == Reply(s.(currentPort := Some(5)), Some(UnknownPort(5)))
      && 5 !in s.servers
      && Select(s, Some(0)) == Reply(s.(currentPort := Some(80)), None)
      && !SameKeys(LoadLogs(SelectAsWritten(s, Some(0)).state, Some(lines)).state)
  {
    OpenTaggedOn80();
    TaggedSelectAsWritten();
    TaggedSelectCorrected();
    TaggedLoadSplitsKeys(lines);
  }

  /** The window's selection of TaggedWindow's only entry picks 5 and fails to show its list. */
  lemma TaggedSelectAsWritten()
    ensures |TaggedWindow.labels| == 1
    ensures SelectAsWritten(TaggedWindow, Some(0)) == Reply(TaggedWindow.(currentPort := Some(5)), Some(UnknownPort(5)))
  {
    TaggedEntryParses();
  }

  /** The corrected selection of TaggedWindow's only entry picks 80 and shows its list. */
  lemma TaggedSelectCorrected()
    ensures |TaggedWindow.labels| == 1
    ensures Select(TaggedWindow, Some(0)) == Reply(TaggedWindow.(currentPort := Some(80)), None)
  {
    TaggedEntryParses();
  }

  /** A historical load for the misread port 5 gives the message table a key the server table lacks. */
  lemma TaggedLoadSplitsKeys(lines: seq<string>)
    ensures !SameKeys(LoadLogs(TaggedWindow.(currentPort := Some(5)), Some(lines)).state)
  {
    var w := TaggedWindow.(currentPort := Some(5));
    assert 5 in LoadLogs(w, Some(lines)).state.messages && 5 !in w.servers;
  }

  /** The window reads 5 from the only entry of TaggedWindow, the corrected parse 80. */
  lemma TaggedEntryParses()
    ensures |TaggedWindow.labels| == 1
    ensures Labels.ParseLabel(TaggedWindow.labels[0]) == Some(5)
    ensures Labels.ParseLabelLast(TaggedWindow.labels[0]) == Some(80)
  {
    Labels.ParseLabelMisreadsTaggedName();
    Labels.LabelRoundTripAnyName("Puerto: 5 Puerto:", 80);
  }

  /** Opening 8080 a second time is refused and changes nothing. */
  lemma OpenSamePortTwice()
    ensures var s := Open(FirstStart(), OpenA, {}).state;
      Open(s, OpenRequest("B", "8080", "simple", None), {}) == Reply(s, Some(DuplicatePort(8080)))
  {
    OpenAOn8080();
    Digits8080();
  }
}

=== FILE: text.dfy ===
/**
 * The few Python string operations the server manager relies on, restricted to
 * ASCII: str.isdigit, int(), str(), str.strip, str.lower, `in` and str.find.
 */
module Text {
  import opened Wrappers

  /** The characters str.isspace() accepts in ASCII, which str.strip() removes. */
  const Whitespace: set<char> :=
    {' ', '\t', '\n', '\r', '\U{B}', '\U{C}', '\U{1C}', '\U{1D}', '\U{1E}', '\U{1F}'}

  predicate IsDigit(c: char) {
    '0' <= c <= '9'
  }

  predicate AllDigits(s: string) {
    forall i :: 0 <= i < |s| ==> IsDigit(s[i])
  }

  /** str.isdigit(): false on the empty string. */
  predicate IsDigits(s: string) {
    |s| > 0 && AllDigits(s)
  }

  function DigitValue(c: char): nat
    requires IsDigit(c)
  {
    c as int - '0' as int
  }

  function DigitChar(d: nat): (c: char)
    requires d < 10
    ensures IsDigit(c) && DigitValue(c) == d
  {
    ('0' as int + d) as char
  }

  /** The number a string of decimal digits denotes, most significant digit first. */
  function DigitsValue(s: string): nat
    requires AllDigits(s)
  {
    if s == [] then 0 else 10 * DigitsValue(s[..|s| - 1]) + DigitValue(s[|s| - 1])
  }

  /** str(n) for a non-negative int: its decimal digits, with no leading zero. */
  function Decimal(n: nat): (r: string)
    ensures IsDigits(r)
    ensures DigitsValue(r) == n
    ensures r[0] == '0' ==> r == "0"
  {
    if n < 10 then [DigitChar(n)] else Decimal(n / 10) + [DigitChar(n % 10)]
  }

  /** Reading a canonical digit string and printing the number gives the string back. */
  lemma {:induction false} DecimalOfDigits(s: string)
    requires IsDigits(s)
    requires s[0] == '0' ==> s == "0"
    ensures Decimal(DigitsValue(s)) == s
    decreases |s|
  {
    if |s| > 1 {
      var front := s[..|s| - 1];
      assert |s| != |"0"|;
      assert front[0] == s[0] != '0';
      DecimalOfDigits(front);
      var d := DigitsValue(front);
      assert Decimal(0)[0] == '0';
      assert d != 0;
      assert DigitsValue(s) / 10 == d && DigitsValue(s) % 10 == DigitValue(s[|s| - 1]);
      assert s == front + [s[|s| - 1]];
    }
  }

  /** r is the piece of s that starts at position i. */
  predicate InfixAt(r: string, s: string, i: int) {
    0 <= i <= |s| - |r| && r == s[i..i + |r|]
  }

  /** Drops the leading characters that belong to cs. */
  function TrimStart(s: string, cs: set<char>): (r: string)
    ensures |r| <= |s| && r == s[|s| - |r|..]
    ensures forall i :: 0 <= i < |s| - |r| ==> s[i] in cs
    ensures r != [] ==> r[0] !in cs
  {
    if s != [] && s[0] in cs then TrimStart(s[1..], cs) else s
  }

  /** Drops the trailing characters that belong to cs. */
  function TrimEnd(s: string, cs: set<char>): (r: string)
    ensures |r| <= |s| && r == s[..|r|]
    ensures forall i :: |r| <= i < |s| ==> s[i] in cs
    ensures r != [] ==> r[|r| - 1] !in cs
  {
    if s != [] && s[|s| - 1] in cs then TrimEnd(s[..|s| - 1], cs) else s
  }

  /**
   * str.strip(chars) with the characters given as a set: the longest infix of
   * s that neither starts nor ends with one of them.
   */
  function StripSet(s: string, cs: set<char>): (r: string)
    ensures |r| <= |s|
    ensures r != [] ==> r[0] !in cs && r[|r| - 1] !in cs
  {
    TrimEnd(TrimStart(s, cs), cs)
  }

  /**
   * The strip is the piece of s at i = |s| - |TrimStart(s, cs)|, and every
   * character before or after that piece is in cs.
   */
  lemma StripSetInfix(s: string, cs: set<char>)
    ensures var r := StripSet(s, cs); var i := |s| - |TrimStart(s, cs)|;
      && InfixAt(r, s, i)
      && (forall j :: 0 <= j < i ==> s[j] in cs)
      && (forall j :: i + |r| <= j < |s| ==> s[j] in cs)
  {
    var t := TrimStart(s, cs);
    var r := TrimEnd(t, cs);
    var i := |s| - |t|;
    assert r == s[i..i + |r|];
    forall j | i + |r| <= j < |s| ensures s[j] in cs {
      assert s[j] == t[j - i];
    }
  }

  /** The strip is empty exactly when every character of s is in cs. */
  lemma StripSetBlank(s: string, cs: set<char>)
    ensures StripSet(s, cs) == [] <==> forall i :: 0 <= i < |s| ==> s[i] in cs
  {
    StripSetInfix(s, cs);
    var r := StripSet(s, cs);
    if r != [] {
      var i := |s| - |TrimStart(s, cs)|;
      assert s[i] == r[0] && s[i] !in cs;
    }
  }

  /** str.strip() with no argument. */
  function Strip(s: string): string {
    StripSet(s, Whitespace)
  }

  /** Stripping a string that is already stripped changes nothing. */
  lemma StripSetIdempotent(s: string, cs: set<char>)
    ensures StripSet(StripSet(s, cs), cs) == StripSet(s, cs)
  {
    StripSetNoop(StripSet(s, cs), cs);
  }

  /** A string with nothing to strip at either end is its own strip. */
  lemma StripSetNoop(s: string, cs: set<char>)
    requires s != [] ==> s[0] !in cs && s[|s| - 1] !in cs
    ensures StripSet(s, cs) == s
  {
  }

  function LowerChar(c: char): char {
    if 'A' <= c <= 'Z' then (c as int + 32) as char else c
  }

  /** str.lower() on ASCII: upper-case letters become lower-case, nothing else moves. */
  function ToLower(s: string): (r: string)
    ensures |r| == |s|
    ensures forall i :: 0 <= i < |s| ==> r[i] == LowerChar(s[i])
  {
    seq(|s|, i requires 0 <= i < |s| => LowerChar(s[i]))
  }

  predicate OccursAt(s: string, pat: string, k: int) {
    0 <= k && k + |pat| <= |s| && s[k..k + |pat|] == pat
  }

  /** The first position at or after i where pat occurs in s. */
  function FindFrom(s: string, pat: string, i: nat): (r: Option<nat>)
    requires i <= |s|
    ensures r.Some? ==> i <= r.value && OccursAt(s, pat, r.value)
    ensures forall k :: i <= k && (r.None? || k < r.value) ==> !OccursAt(s, pat, k)
    decreases |s| - i
  {
    if i + |pat| > |s| then None
    else if s[i..i + |pat|] == pat then Some(i)
    else FindFrom(s, pat, i + 1)
  }

  /** str.find(pat), with None for -1. */
  function IndexOf(s: string, pat: string): Option<nat> {
    FindFrom(s, pat, 0)
  }

  /** Python's `pat in s`. */
  predicate Contains(s: string, pat: string) {
    IndexOf(s, pat).Some?
  }

  /** `pat in s` holds exactly when pat occurs at some position of s. */
  lemma ContainsIff(s: string, pat: string, k: int)
    ensures OccursAt(s, pat, k) ==> Contains(s, pat)
    ensures Contains(s, pat) ==> OccursAt(s, pat, IndexOf(s, pat).value)
  {
  }

  /** The last position at or before i where pat occurs in s. */
  function FindLastFrom(s: string, pat: string, i: int): (r: Option<nat>)
    ensures r.Some? ==> r.value <= i && OccursAt(s, pat, r.value)
    ensures forall k :: k <= i && (r.None? || r.value < k) ==> !OccursAt(s, pat, k)
    decreases i + 1
  {
    if i < 0 then None
    else if OccursAt(s, pat, i) then Some(i)
    else FindLastFrom(s, pat, i - 1)
  }

  /** str.rfind(pat), with None for -1. */
  function LastIndexOf(s: string, pat: string): (r: Option<nat>)
    ensures r.Some? ==> OccursAt(s, pat, r.value)
    ensures forall k :: (r.None? || r.value < k) ==> !OccursAt(s, pat, k)
  {
    FindLastFrom(s, pat, |s| - |pat|)
  }

  /**
   * int(text) on an ASCII string: surrounding whitespace, an optional sign and
   * a run of digits; None where Python raises ValueError.
   */
  function PyInt(s: string): (r: Option<int>)
    ensures r.Some? ==> Strip(s) != []
  {
    var t := Strip(s);
    if IsDigits(t) then
      Some(DigitsValue(t))
    else if |t| >= 2 && (t[0] == '-' || t[0] == '+') && IsDigits(t[1..]) then
      var v: int := DigitsValue(t[1..]);
      Some(if t[0] == '-' then -v else v)
    else
      None
  }

  /** int() of a plain digit string is the number the digits denote. */
  lemma PyIntOfDigits(s: string)
    requires IsDigits(s)
    ensures PyInt(s) == Some(DigitsValue(s))
  {
    assert s[0] !in Whitespace && s[|s| - 1] !in Whitespace by {
      assert IsDigit(s[0]) && IsDigit(s[|s| - 1]);
    }
    StripSetNoop(s, Whitespace);
  }
}

=== FILE: wrappers.dfy ===
/** Optional values and results, used where the Python code has None or raises. */
module Wrappers {

  datatype Option<+T> = None | Some(value: T) {

    /** dict.get(key, default) style access: the value, or the default when absent. */
    function GetOr(default: T): T {
      match this
      case Some(v) => v
      case None => default
    }
  }

  datatype Result<+T, +E> = Ok(value: T) | Err(error: E)
}
